=== FILE: README.md ===
# Binary analog watch face — Dafny model

A model of the rendering and scheduling core of the binary analog watch face
(`BinaryAnalogWatchFaceService` and its `Engine`), with proofs of its
properties. The face draws the hour (4 bits) and minute (6 bits) as columns of
square cells rotated to the analog hand angles around a centre complication.
It restyles its paints for ambient and mute modes and redraws once a second
while visible and active.

| file | module | models |
|---|---|---|
| `arith.dfy` | `Arith` | Java's truncating `/` and `%` (the `width / 4` of `onSurfaceChanged`, the `%` of the handler), and Euclidean division facts used by the proofs |
| `bits.dfy` | `BinaryBits` | `getBinaryPaint`: per-bit choice of the "0" or "1" paint |
| `tiling.dfy` | `Tiling` | `drawBinaryLine`: one inset square cell per bit |
| `dial.dfy` | `Dial` | `onSurfaceChanged`: centre, complication radius, segment size, ring radii, complication bounds |
| `hands.dfy` | `Hands` | `drawWatchHands` angles and the `Calendar` fields they read |
| `timer.dfy` | `Timer` | the second-aligned delay of the handler callback |
| `paints.dfy` | `Paints` | colours, paints, `updateWatchPaintStyles`, complication text palette |
| `watchface.dfy` | `WatchFace` | the engine state and its callbacks: create, visibility, ambient, interruption filter, properties, surface, timer handler, time-zone receiver, destroy, and the helpers `initializeWatchFace`, `setComplicationsActiveAndAmbientColors` and `shouldTimerBeRunning` |
| `frame.dfy` | `Frame` | `onDraw`, `drawBackground` and `drawWatchHands` as a list of canvas commands |
| `complications.dfy` | `Complications` | `getComplicationId`, `getComplicationIds`, `getSupportedComplicationTypes` |

Modelling choices:

- The engine is an immutable record, and each host callback is a function
  from record to record.
- The handler's message queue is the list of delays of its pending update
  messages.
- The system's receiver registry is a registration count. Android refuses to
  unregister a receiver that is not registered, so the invariant proves the
  count never goes below zero.
- `invalidate()` is a counter of redraw requests.
- Colours are 32-bit ARGB values, as Android stores them. `Paint.setColor`
  replaces all four bytes. `Paint.setAlpha` replaces only the alpha byte.
- Floats are exact reals. The only integer steps are `width / 4` (truncating
  division) and the `(int)` casts of the complication bounds.
- Time is a parameter. `System.currentTimeMillis()` is an `int` argument. The
  calendar fields come from the local instant: UTC milliseconds plus a zone
  offset that is also an argument.
- The callbacks that restyle the paints (visibility and ambient mode) come in
  two versions. `WatchFace.StepAsWritten` and `WatchFace.RunAsWritten` are
  the source as written. `WatchFace.Step` and `WatchFace.Run` keep the mute
  dimming (see Findings).
- The engine invariant has two parts. `WatchFace.ValidCore` covers the
  receiver, the timer, the colours of the mode and the complication text, and
  is proved for both versions. `WatchFace.MuteDimmed` is proved for the
  corrected version only.
- The accent colour's 500 and 800 shades, and whether the 800 shade is dark,
  are an opaque `Accent` input. The colour resources are an opaque
  `Resources` input.

Details of the code worth noting:

- In ambient mode the bit shadows are cleared whatever `lowBitAmbient` says.
  Only anti-aliasing depends on that flag.
- There are two ambient bit colours (for "0" and "1"), not one.
- The minute column starts at the minute ring, not at the hour ring.
- The background ring is stroked at the hour ring radius with a stroke width
  of four segments.
- The stroke width is taken from the segment size known when the preferences
  were last loaded. So it is right only after a visibility change that follows
  the surface change.

## Model

| member | source | states |
|---|---|---|
| BinaryBits.BinaryPaint | Wearable/src/main/java/com/vorsk/binaryanalog/watchface/BinaryAnalogWatchFaceService.java:518-528 | the choices of `getBinaryPaint`: exactly `bits` entries. For `0 <= num` and at most 32 bits they are the binary digits of `num`, LSB first. A negative `num` lights its sign cell (bit 31) |
| BinaryBits.GetBinaryPaint | Wearable/src/main/java/com/vorsk/binaryanalog/watchface/BinaryAnalogWatchFaceService.java:518-528 | the loop of the source: exactly `bits` choices, and choice `i` is the "1" paint iff bit `i` of `num` is set, with Java's shift distance taken mod 32. The result is the sequence `BinaryBits.BinaryPaint` describes |
| BinaryBits.BinaryPaintShowsValue | Wearable/src/main/java/com/vorsk/binaryanalog/watchface/BinaryAnalogWatchFaceService.java:518-528 | encoding round trip: for `0 <= num < 2^bits` (bits ≤ 32) the choices, read LSB first as `sum sel[i]*2^i`, give back `num` |
| BinaryBits.BinaryPaintOfValue | Wearable/src/main/java/com/vorsk/binaryanalog/watchface/BinaryAnalogWatchFaceService.java:518-528 | decoding round trip: every pattern of at most 31 cells is exactly the choice for the number it shows |
| BinaryBits.BinaryPaintInjective | Wearable/src/main/java/com/vorsk/binaryanalog/watchface/BinaryAnalogWatchFaceService.java:518-528 | two numbers that fit in the column and get the same pattern are equal |
| BinaryBits.HourColumnShowsHour | Wearable/src/main/java/com/vorsk/binaryanalog/watchface/BinaryAnalogWatchFaceService.java:557-567 | every hour 0..11 is shown exactly by the 4-bit column |
| BinaryBits.MinuteColumnShowsMinute | Wearable/src/main/java/com/vorsk/binaryanalog/watchface/BinaryAnalogWatchFaceService.java:553-571 | every minute 0..59 is shown exactly by the 6-bit column |
| BinaryBits.ThreeOClockPattern | Wearable/src/main/java/com/vorsk/binaryanalog/watchface/BinaryAnalogWatchFaceService.java:518-528 | hour 3 lights cells 0 and 1 only (LSB nearest the centre) |
| Tiling.CellRect | Wearable/src/main/java/com/vorsk/binaryanalog/watchface/BinaryAnalogWatchFaceService.java:536-541 | the `drawRect` arguments of cell `i`. They form a square of side `seg - 2*margin`, centred on the column axis and on the middle of slot `i`. They satisfy `left <= right` and `bottom <= top` iff `seg >= 2*margin`, and both pairs are reversed otherwise. Here `top` is the edge nearer the start point, the larger y, so Android, which expects `top <= bottom`, receives every cell with its vertical pair reversed |
| Tiling.BinaryLine | Wearable/src/main/java/com/vorsk/binaryanalog/watchface/BinaryAnalogWatchFaceService.java:530-543 | one cell per bit, in slot order. Cell `i` sits in slot `i` and is filled "1" exactly when bit `i` of `num` is set |
| Tiling.CellIsInsetSlot | Wearable/src/main/java/com/vorsk/binaryanalog/watchface/BinaryAnalogWatchFaceService.java:537-543 | cell `i` is the slot from `seg*i` to `seg*(i+1)` beyond the start, one segment wide, shrunk by the margin on every side |
| Tiling.SlotsAbut | Wearable/src/main/java/com/vorsk/binaryanalog/watchface/BinaryAnalogWatchFaceService.java:537-543 | slot `i`'s far edge is slot `i+1`'s near edge: no gaps |
| Tiling.CellsStepOutward | Wearable/src/main/java/com/vorsk/binaryanalog/watchface/BinaryAnalogWatchFaceService.java:537-543 | cell 0 starts one margin from the start point and each next cell is exactly one segment further out |
| Tiling.CellsDoNotOverlap | Wearable/src/main/java/com/vorsk/binaryanalog/watchface/BinaryAnalogWatchFaceService.java:537-543 | with `seg, margin >= 0`, a further cell's `drawRect` arguments lie at or beyond every nearer cell's. They span a square only when `seg >= 2*margin` (`Tiling.CellRect`) |
| Tiling.CellWithinColumn | Wearable/src/main/java/com/vorsk/binaryanalog/watchface/BinaryAnalogWatchFaceService.java:537-543 | with `seg, margin >= 0`, every cell's far edge lies at or beyond `startY - seg*bits`, its near edge at or below `startY`, and its sides within `seg/2` of `startX`. When `seg >= 2*margin` all four `drawRect` arguments lie in that box, ordered bottom ≤ top and left ≤ right |
| Tiling.SlotsCoverColumn | Wearable/src/main/java/com/vorsk/binaryanalog/watchface/BinaryAnalogWatchFaceService.java:537-543 | every point of the column band lies in the slot of some bit |
| Tiling.BinaryLineShowsValue | Wearable/src/main/java/com/vorsk/binaryanalog/watchface/BinaryAnalogWatchFaceService.java:530-543 | the line has one cell per bit in slot order, filled "1" exactly for the set bits, and it reads back as `num` |
| Dial.SurfaceGeometry | Wearable/src/main/java/com/vorsk/binaryanalog/watchface/BinaryAnalogWatchFaceService.java:453-471 | the centre is half the surface size. The 4-bit hour column runs from the complication edge to the minute ring, and the 6-bit minute column from the minute ring to `centerX`. The hour ring lies two segments from each end of the hour column |
| Dial.SegmentFitsMargins | Wearable/src/main/java/com/vorsk/binaryanalog/watchface/BinaryAnalogWatchFaceService.java:465-471 | the segment is at least 4 px, twice the 2-px cell margin, exactly when the surface is at least 106 px wide |
| Arith.JavaDiv | Wearable/src/main/java/com/vorsk/binaryanalog/watchface/BinaryAnalogWatchFaceService.java:467 | Java's `int` division truncates toward zero: for a non-negative dividend the quotient times the divisor is at most the dividend and within one divisor of it, mirrored for a negative one |
| Arith.JavaRem | Wearable/src/main/java/com/vorsk/binaryanalog/watchface/BinaryAnalogWatchFaceService.java:163-165 | Java's `%`: dividend = divisor × quotient + remainder, with the remainder in `[0, b)` for a non-negative dividend and in `(-b, 0]` for a negative one |
| Dial.TruncToInt | Wearable/src/main/java/com/vorsk/binaryanalog/watchface/BinaryAnalogWatchFaceService.java:475-479 | Java's `(int)` cast of a float: it drops the fraction, rounding toward zero |
| Dial.ComplicationBounds | Wearable/src/main/java/com/vorsk/binaryanalog/watchface/BinaryAnalogWatchFaceService.java:473-479 | each bound is the matching edge of the square around the complication circle, rounded toward zero to a whole pixel |
| Dial.ComplicationRadiusIsEighthWidth | Wearable/src/main/java/com/vorsk/binaryanalog/watchface/BinaryAnalogWatchFaceService.java:466-468 | `8*radius` lies in `(width-4, width]`, and equals `width` when it is a multiple of 4 |
| Dial.RadiiOrdered | Wearable/src/main/java/com/vorsk/binaryanalog/watchface/BinaryAnalogWatchFaceService.java:454-471 | for width ≥ 4: `seg > 0` and `0 < radius < hourRing < minuteRing < centerX` |
| Dial.ComplicationBoundsOnScreen | Wearable/src/main/java/com/vorsk/binaryanalog/watchface/BinaryAnalogWatchFaceService.java:473-479 | on a square surface the complication bounds form a square inside the screen, each side truncated by less than a pixel |
| Dial.FourHundredPixelFace | Wearable/src/main/java/com/vorsk/binaryanalog/watchface/BinaryAnalogWatchFaceService.java:454-479 | 400×400: radius 50, segment 15, rings 80 and 110, complication bounds 150..250 |
| Hands.CalendarFields | Wearable/src/main/java/com/vorsk/binaryanalog/watchface/BinaryAnalogWatchFaceService.java:552-557 | the hour, minute and second read from a local instant lie in 0..11, 0..59 and 0..59 |
| Hands.HoursRotation | Wearable/src/main/java/com/vorsk/binaryanalog/watchface/BinaryAnalogWatchFaceService.java:556-558 | the hour hand stays within its hour's 30° sector. For fields in range it lies in `[0, 360)` |
| Hands.MinutesRotation | Wearable/src/main/java/com/vorsk/binaryanalog/watchface/BinaryAnalogWatchFaceService.java:552-554 | the minute hand stays within its minute's 6° sector. For fields in range it lies in `[0, 360)` |
| Hands.HourHandIsContinuous | Wearable/src/main/java/com/vorsk/binaryanalog/watchface/BinaryAnalogWatchFaceService.java:556-558 | the hour angle rises 0.5° per minute, hour `h` at :59 plus 0.5 is hour `h+1` at :00, and 11:59 plus 0.5 is 360 |
| Hands.HoursRotationOfInstant | Wearable/src/main/java/com/vorsk/binaryanalog/watchface/BinaryAnalogWatchFaceService.java:553-558 | the hour angle of an instant is half its whole minutes into the current 12-hour half day |
| Hands.MinutesRotationOfInstant | Wearable/src/main/java/com/vorsk/binaryanalog/watchface/BinaryAnalogWatchFaceService.java:552-554 | the minute angle of an instant is a tenth of its whole seconds into the hour |
| Hands.HourAngleAdvancesEachMinute | Wearable/src/main/java/com/vorsk/binaryanalog/watchface/BinaryAnalogWatchFaceService.java:553-558 | 60 s later the hour angle is 0.5° further on, or wraps from 359.5 to 0 at twelve |
| Hands.MinuteAngleAdvancesEachSecond | Wearable/src/main/java/com/vorsk/binaryanalog/watchface/BinaryAnalogWatchFaceService.java:552-554 | 1 s later the minute angle is 0.1° further on, or wraps from 359.9 to 0 on the hour |
| Hands.ThreeThirtyTwo | Wearable/src/main/java/com/vorsk/binaryanalog/watchface/BinaryAnalogWatchFaceService.java:552-558 | at 3:32 the hour angle is 106° and the minute angle 192° plus 0.1° per second |
| Timer.TickDelay | Wearable/src/main/java/com/vorsk/binaryanalog/watchface/BinaryAnalogWatchFaceService.java:162-166 | the delay is 1 ms to under 2 s, and `now + delay` is a whole second |
| Timer.TickDelayAligned | Wearable/src/main/java/com/vorsk/binaryanalog/watchface/BinaryAnalogWatchFaceService.java:162-166 | `now + delay` is always a whole second. For `now >= 0` the delay is 1..1000 ms and lands on the first whole second after `now`. Before the epoch the delay is 1000..1999 ms |
| Paints.WithAlpha | Wearable/src/main/java/com/vorsk/binaryanalog/watchface/BinaryAnalogWatchFaceService.java:439-440 | `setAlpha` yields the requested alpha and keeps red, green and blue |
| Paints.UpdateWatchPaintStylesAsWritten | Wearable/src/main/java/com/vorsk/binaryanalog/watchface/BinaryAnalogWatchFaceService.java:401-429 | ambient: black background and ring and the ambient bit colours. Active: the accent shades and the bit colours. Anti-alias is `!(ambient && lowBit)`, and bit shadows are set only in active mode. Untouched style fields are kept. The bit paints end with the alpha of the newly set colour, so an earlier mute alpha is lost |
| Paints.UpdateWatchPaintStyles | Wearable/src/main/java/com/vorsk/binaryanalog/watchface/BinaryAnalogWatchFaceService.java:401-429 | the same colours, anti-aliasing, shadows and untouched fields as written. Muted bit paints keep alpha 100. Unmuted, the result equals the update as written |
| Paints.StylesForgetHistory | Wearable/src/main/java/com/vorsk/binaryanalog/watchface/BinaryAnalogWatchFaceService.java:401-429 | the resolved styles depend only on the mode and loaded colours, not on the previous paints, so leaving ambient restores the active look exactly |
| Paints.StylesIdempotent | Wearable/src/main/java/com/vorsk/binaryanalog/watchface/BinaryAnalogWatchFaceService.java:401-429 | resolving the styles twice is resolving them once |
| Paints.ComplicationTextColors | Wearable/src/main/java/com/vorsk/binaryanalog/watchface/BinaryAnalogWatchFaceService.java:279-301 | the light text pair is chosen exactly when the background ring is dark, unless the light and dark pairs coincide |
| WatchFace.LoadSavedPreferences | Wearable/src/main/java/com/vorsk/binaryanalog/watchface/BinaryAnalogWatchFaceService.java:203-231 | the colours become the accent's shades and the fixed bit colours. The background paints get those colours, with no anti-alias. The ring is a stroke four segments wide of the geometry known now, and its shadow is the hand-shadow colour from before the call. Nothing else changes |
| WatchFace.Create | Wearable/src/main/java/com/vorsk/binaryanalog/watchface/BinaryAnalogWatchFaceService.java:173-270 | a new engine satisfies the invariant: invisible, active, unmuted, no receiver, no queued tick, and the accent's active-mode colours |
| WatchFace.UpdateTimer | Wearable/src/main/java/com/vorsk/binaryanalog/watchface/BinaryAnalogWatchFaceService.java:627-640 | afterwards exactly one immediate tick is queued if visible and not ambient, otherwise none; nothing else changes |
| WatchFace.ShouldTimerBeRunning | Wearable/src/main/java/com/vorsk/binaryanalog/watchface/BinaryAnalogWatchFaceService.java:638-640 | the timer should run exactly in the visible, active mode |
| WatchFace.InitializeWatchFace | Wearable/src/main/java/com/vorsk/binaryanalog/watchface/BinaryAnalogWatchFaceService.java:260-270 | two fresh bit paints in the loaded bit colours, anti-aliased, filled and without shadow; nothing else changes |
| WatchFace.SetComplicationColors | Wearable/src/main/java/com/vorsk/binaryanalog/watchface/BinaryAnalogWatchFaceService.java:279-301 | the light text pair on a dark background ring, the dark pair otherwise; nothing else changes |
| WatchFace.OnTimeZoneChanged | Wearable/src/main/java/com/vorsk/binaryanalog/watchface/BinaryAnalogWatchFaceService.java:113-120 | the time-zone broadcast reaches the receiver only while the system holds a registration, and then adds one redraw request and changes nothing else |
| WatchFace.TimeZoneRedrawsWhileVisible | Wearable/src/main/java/com/vorsk/binaryanalog/watchface/BinaryAnalogWatchFaceService.java:113-120 | under the core invariant a time-zone change redraws exactly while the face is visible, in both versions of the engine, and changes nothing but the redraw count |
| WatchFace.HandleUpdateMessage | Wearable/src/main/java/com/vorsk/binaryanalog/watchface/BinaryAnalogWatchFaceService.java:156-170 | a delivered tick redraws. It re-queues exactly one second-aligned tick only while visible and active. The rest of the queue is kept in order and nothing else changes. With nothing queued nothing happens |
| WatchFace.RegisterReceiver | Wearable/src/main/java/com/vorsk/binaryanalog/watchface/BinaryAnalogWatchFaceService.java:607-614 | afterwards the flag is set, the system registration count rises only if it was not, and nothing else changes |
| WatchFace.UnregisterReceiver | Wearable/src/main/java/com/vorsk/binaryanalog/watchface/BinaryAnalogWatchFaceService.java:616-622 | afterwards the flag is clear, the system registration count drops only if it was set, and nothing else changes |
| WatchFace.ReceiverCallsIdempotent | Wearable/src/main/java/com/vorsk/binaryanalog/watchface/BinaryAnalogWatchFaceService.java:607-622 | a second register or unregister changes nothing |
| WatchFace.OnVisibilityChangedAsWritten | Wearable/src/main/java/com/vorsk/binaryanalog/watchface/BinaryAnalogWatchFaceService.java:578-605 | as written. Becoming visible loads the new accent's colours and the complication text colours for its darkness. It restyles for the current mode, registers the receiver, and requests one redraw. Becoming invisible only unregisters and empties the queue. Either way, one tick is queued iff visible and active |
| WatchFace.OnVisibilityChanged | Wearable/src/main/java/com/vorsk/binaryanalog/watchface/BinaryAnalogWatchFaceService.java:578-605 | corrected: equal to the callback as written except for the colours of the two bit paints, whose RGB also agrees with it. These differ only when a muted face becomes visible, which then keeps alpha 100 |
| WatchFace.OnAmbientModeChangedAsWritten | Wearable/src/main/java/com/vorsk/binaryanalog/watchface/BinaryAnalogWatchFaceService.java:378-399 | as written: records the mode, gives the paints that mode's colours, and queues one tick iff visible and active. Nothing else changes. The bit paints take the alpha of their new colour |
| WatchFace.OnAmbientModeChanged | Wearable/src/main/java/com/vorsk/binaryanalog/watchface/BinaryAnalogWatchFaceService.java:378-399 | corrected: equal to the callback as written except for the colours of the two bit paints, whose RGB also agrees with it. These differ only while muted, and then keep alpha 100 |
| WatchFace.OnInterruptionFilterChanged | Wearable/src/main/java/com/vorsk/binaryanalog/watchface/BinaryAnalogWatchFaceService.java:431-443 | muted iff the filter is "none". Only a change redraws, and it sets both bit alphas to 100 (muted) or 255, keeping RGB. No other field changes. No change leaves the engine as it was |
| WatchFace.OnPropertiesChanged | Wearable/src/main/java/com/vorsk/binaryanalog/watchface/BinaryAnalogWatchFaceService.java:309-327 | records the low-bit and burn-in flags. The paints keep their styles until the next restyle, and no redraw is requested |
| WatchFace.OnSurfaceChanged | Wearable/src/main/java/com/vorsk/binaryanalog/watchface/BinaryAnalogWatchFaceService.java:445-471 | only the geometry is recomputed. The ring keeps the stroke width it was loaded with |
| WatchFace.OnDestroy | Wearable/src/main/java/com/vorsk/binaryanalog/watchface/BinaryAnalogWatchFaceService.java:303-307 | teardown leaves no queued tick and changes nothing else |
| WatchFace.Step | Wearable/src/main/java/com/vorsk/binaryanalog/watchface/BinaryAnalogWatchFaceService.java:303-640 | one host callback, corrected. The resources never change and the redraw count never drops |
| WatchFace.StepAsWritten | Wearable/src/main/java/com/vorsk/binaryanalog/watchface/BinaryAnalogWatchFaceService.java:303-640 | one host callback as written. The resources never change and the redraw count never drops |
| WatchFace.Run | Wearable/src/main/java/com/vorsk/binaryanalog/watchface/BinaryAnalogWatchFaceService.java:303-640 | a sequence of corrected callbacks. The resources never change and the redraw count never drops |
| WatchFace.RunAsWritten | Wearable/src/main/java/com/vorsk/binaryanalog/watchface/BinaryAnalogWatchFaceService.java:303-640 | a sequence of callbacks as written. The resources never change and the redraw count never drops |
| WatchFace.VisibilityKeepsValid | Wearable/src/main/java/com/vorsk/binaryanalog/watchface/BinaryAnalogWatchFaceService.java:578-605 | a visibility change keeps the core invariant (receiver, timer, colours, complication text), as written and corrected. The corrected callback also keeps the mute dimming |
| WatchFace.AmbientKeepsValid | Wearable/src/main/java/com/vorsk/binaryanalog/watchface/BinaryAnalogWatchFaceService.java:378-399 | an ambient-mode change keeps the core invariant as written and corrected. The corrected callback also keeps the mute dimming |
| WatchFace.FilterKeepsValid | Wearable/src/main/java/com/vorsk/binaryanalog/watchface/BinaryAnalogWatchFaceService.java:431-443 | an interruption-filter change keeps the core invariant and the mute dimming |
| WatchFace.HandlerKeepsValid | Wearable/src/main/java/com/vorsk/binaryanalog/watchface/BinaryAnalogWatchFaceService.java:156-170 | a delivered tick keeps the core invariant and the mute dimming |
| WatchFace.StepPreservesValid | Wearable/src/main/java/com/vorsk/binaryanalog/watchface/BinaryAnalogWatchFaceService.java:303-640 | every callback keeps the core invariant, as written and corrected. The corrected callbacks also keep the mute dimming |
| WatchFace.RunPreservesValid | Wearable/src/main/java/com/vorsk/binaryanalog/watchface/BinaryAnalogWatchFaceService.java:303-640 | every sequence of callbacks keeps the core invariant, as written and corrected. The corrected callbacks also keep the mute dimming |
| WatchFace.TimerAndReceiverFollowMode | Wearable/src/main/java/com/vorsk/binaryanalog/watchface/BinaryAnalogWatchFaceService.java:599-640 | in every state reachable from creation, as written and corrected: at most one tick is queued, and one exactly when visible and active. The receiver is registered at most once, and exactly while visible |
| WatchFace.HidingReleasesEverything | Wearable/src/main/java/com/vorsk/binaryanalog/watchface/BinaryAnalogWatchFaceService.java:599-605 | after becoming invisible the flag is clear, the system holds no registration and no tick is queued. The corrected callback behaves the same |
| WatchFace.ModeWalkLeavesNoTimer | Wearable/src/main/java/com/vorsk/binaryanalog/watchface/BinaryAnalogWatchFaceService.java:578-640 | the walk visible active, ambient, active, invisible leaves no tick and no registration, as written and corrected, and neither does destroying afterwards |
| WatchFace.SurfaceChangeIdempotent | Wearable/src/main/java/com/vorsk/binaryanalog/watchface/BinaryAnalogWatchFaceService.java:445-471 | a surface change only recomputes the geometry; repeating it with the same size changes nothing |
| WatchFace.MutedBitsStayDimmed | Wearable/src/main/java/com/vorsk/binaryanalog/watchface/BinaryAnalogWatchFaceService.java:431-443 | with the corrected restyling, in every reachable muted state both bit paints have alpha 100 |
| WatchFace.MuteDimmingLostAsWritten | Wearable/src/main/java/com/vorsk/binaryanalog/watchface/BinaryAnalogWatchFaceService.java:378-443 | as written, muting and then entering ambient mode leaves a muted face with a bit paint at alpha 255, which a repeated mute callback does not repair |
| WatchFace.VisibilityLosesDimmingAsWritten | Wearable/src/main/java/com/vorsk/binaryanalog/watchface/BinaryAnalogWatchFaceService.java:401-443 | as written, muting and then becoming visible leaves a muted face with a bit paint at alpha 255, which a repeated mute callback does not repair |
| WatchFace.RingBandIsHourColumn | Wearable/src/main/java/com/vorsk/binaryanalog/watchface/BinaryAnalogWatchFaceService.java:217-221 | after becoming visible on a known surface, the stroked ring spans exactly the complication edge to the minute ring |
| Frame.DrawBackground | Wearable/src/main/java/com/vorsk/binaryanalog/watchface/BinaryAnalogWatchFaceService.java:496-503 | a single black fill exactly on ambient low-bit or burn-in displays. Otherwise the background paint's colour, then the ring circle at the hour ring radius around the centre |
| Frame.DrawWatchHands | Wearable/src/main/java/com/vorsk/binaryanalog/watchface/BinaryAnalogWatchFaceService.java:546-576 | 14 commands: save, a rotation about the centre, 4 cells, a second rotation about the centre, 6 cells, restore |
| Frame.DrawBinaryLineCells | Wearable/src/main/java/com/vorsk/binaryanalog/watchface/BinaryAnalogWatchFaceService.java:530-543 | `drawBinaryLine` issues exactly `bits` rectangles; rectangle `i` is cell `i`'s `drawRect` arguments, filled with the "1" paint iff bit `i` of `num` is set and with the "0" paint otherwise |
| Frame.HandColumns | Wearable/src/main/java/com/vorsk/binaryanalog/watchface/BinaryAnalogWatchFaceService.java:563-574 | the hand section's commands 2..5 are the hour column drawn from the complication edge and commands 7..12 the minute column drawn from the minute ring |
| Frame.OnDraw | Wearable/src/main/java/com/vorsk/binaryanalog/watchface/BinaryAnalogWatchFaceService.java:486-494 | the frame opens with exactly `DrawBackground(s)`, so `Frame.BackgroundFollowsMode` describes it (for example a single black fill in ambient mode on a low-bit or burn-in display). The complication is drawn exactly once, after it, with the frame's time. Last come the hands at the local time |
| Frame.BackgroundFollowsMode | Wearable/src/main/java/com/vorsk/binaryanalog/watchface/BinaryAnalogWatchFaceService.java:496-503 | given the core invariant. Ambient with low-bit or burn-in: one black fill and no ring. Any ambient: only black is drawn. Active: the 500-shade fill and the 800-shade ring at the hour ring radius |
| Frame.DrawnColumnReadsBack | Wearable/src/main/java/com/vorsk/binaryanalog/watchface/BinaryAnalogWatchFaceService.java:530-543 | a drawn column reads back as its number when the two bit paints differ |
| Frame.HandsShowTime | Wearable/src/main/java/com/vorsk/binaryanalog/watchface/BinaryAnalogWatchFaceService.java:546-576 | the cells read back as hour and minute, and the rotations sum to the minute angle |
| Frame.ColumnsStayInTheirBands | Wearable/src/main/java/com/vorsk/binaryanalog/watchface/BinaryAnalogWatchFaceService.java:546-576 | for width ≥ 4, before rotation each hour cell's far edge stays short of the minute ring and its near edge beyond the complication edge; likewise the minute cells between the minute ring and `centerX` from the centre. A cell's `bottom` argument is at most its `top` argument exactly when width ≥ 106, and then every cell lies wholly inside its band and within half a segment of the axis |
| Complications.GetComplicationId | Wearable/src/main/java/com/vorsk/binaryanalog/watchface/BinaryAnalogWatchFaceService.java:66-75 | every location's id is at least 0 and is a registered complication id |
| Complications.GetSupportedComplicationTypes | Wearable/src/main/java/com/vorsk/binaryanalog/watchface/BinaryAnalogWatchFaceService.java:84-93 | the centre accepts at least one type, including the default provider's short text |
| Complications.ComplicationTablesConsistent | Wearable/src/main/java/com/vorsk/binaryanalog/watchface/BinaryAnalogWatchFaceService.java:84-93 | ids are distinct and all belong to a location. The centre's types have no repeats, include the default provider's short text, and exclude long text and large images |

## Findings

| source | as written | input that shows it | evidently intended | confidence | as-written member | corrected member |
|---|---|---|---|---|---|---|
| Wearable/src/main/java/com/vorsk/binaryanalog/watchface/BinaryAnalogWatchFaceService.java:401-443 | `updateWatchPaintStyles` re-colours the bit paints with `setColor`, which also replaces the alpha that `onInterruptionFilterChanged` set for mute mode. The `mMuteMode != inMuteMode` guard then stops a repeated mute callback from restoring it | an active face gets the "none" filter (muted, alpha 100), then ambient mode on, with an opaque ambient "0" colour: the face is still muted but its "0" paint has alpha 255 | the bit paints stay dimmed (alpha 100) for as long as mute mode is on | not executed; medium: relies on `Paint.setColor` replacing alpha and on opaque bit colour resources | WatchFace.MuteDimmingLostAsWritten | Paints.UpdateWatchPaintStyles |

`Paints.UpdateWatchPaintStylesAsWritten` is the style update as the source
writes it, used by `WatchFace.OnAmbientModeChangedAsWritten` and
`WatchFace.OnVisibilityChangedAsWritten`. Both paths lose the dimming:
- `WatchFace.MuteDimmingLostAsWritten` shows it when ambient mode is entered.
- `WatchFace.VisibilityLosesDimmingAsWritten` shows it when a muted face
  becomes visible again.

`Paints.UpdateWatchPaintStyles` sets the mute alpha again after re-colouring.
`WatchFace.OnAmbientModeChanged` and `WatchFace.OnVisibilityChanged` use it.
`WatchFace.MutedBitsStayDimmed` proves that muted faces then stay dimmed.

## Left out

- Canvas, `ComplicationDrawable`, `SharedPreferences`, `BroadcastReceiver`,
  `Handler` delivery timing and `WatchFaceStyle` are Android framework code.
  Frames are lists of canvas commands. The handler is a queue of delays
  delivered in order. The receiver is a registration count.
- The `Calendar` and time zones are foreign code. The receiver's
  `setTimeZone` call is not modelled as state. The zone offset is an input,
  and the fields are taken from local milliseconds. Daylight-saving changes
  and leap seconds are not modelled.
- `MaterialColors` (`Get`, `Color(500/800)`, `isColorDark`) and the colour
  resources are not part of this model. They are opaque inputs, and the
  fallback for unknown colour names is not modelled.
- IEEE float rounding in the geometry and angle code is not modelled. Reals
  are exact, so the model's minute column lands at exactly
  `hours + (minutes - hours)`.
- BinaryBits.GetBinaryPaint: takes `bits` as a natural number. A negative
  `bits` makes Java throw `NegativeArraySizeException`, and the only callers
  pass 4 and 6.
- Tap handling (`onTapCommand`) is left out. It only forwards to
  `ComplicationDrawable.onTap`.
- Complication data updates and time ticks are modelled only as redraw
  requests.
- Forwarding the ambient, low-bit and burn-in flags to the complication
  drawable, the default provider set-up, and the stroke cap are left out.
  They are foreign calls.
- Complications.GetComplicationId: the `default` branch returning -1 is not
  modelled. The location enumeration has only `CENTER`, so the branch is
  unreachable.
- The same holds for the empty-array `default` of
  `getSupportedComplicationTypes`. `getComplicationIds` is the constant
  `Complications.ComplicationIds`.
- The ring paint's shadow colour is taken before `loadSavedPreferences`
  assigns it (line 219 against line 230). It is modelled as written and
  stated in `WatchFace.LoadSavedPreferences`. No claim is made about whether
  it is intended.
- How `Canvas.drawRect` treats reversed arguments is not modelled. On every
  face the cells are passed with the `top` argument greater than the
  `bottom` argument, since the column grows towards smaller y from its
  start point. Surfaces narrower than 106 pixels have segments under twice
  the 2-pixel margin (`Dial.SegmentFitsMargins`), so there `left > right`
  as well (`Tiling.CellRect`). The layout lemmas describe the arguments
  only.
- Tiling.CellWithinColumn: when `seg < 2*margin` only one side of each
  argument is bounded. The near edge can then lie beyond the band's far end
  and the far edge outside its start, so no containment is promised there.
- Frame.ColumnsStayInTheirBands: for widths 4 to 105 only the one-sided
  bounds hold. On such a face an hour cell's `bottom` argument can
  lie inside the complication circle, so the columns are not promised to
  stay clear of each other or of the complication there.
- `System.currentTimeMillis()` wrap-around on `long` is not modelled.

=== FILE: arith.dfy ===
/** Java's truncating integer division and remainder, and facts about
    Euclidean division by positive divisors shared by the bit, clock and
    timer models. Dafny's `/` and `%` with a positive divisor are floor
    division and a non-negative remainder; Java's round toward zero. */
module Arith {

  /** Java's integer division, which truncates toward zero. */
  function JavaDiv(a: int, b: int): (q: int)
    requires b > 0
    ensures a >= 0 ==> b * q <= a < b * q + b
    ensures a < 0 ==> b * q - b < a <= b * q
  {
    if a >= 0 then a / b else -((-a) / b)
  }

  /** Java's `%`: the remainder takes the sign of the dividend, and with
      `JavaDiv` it recomposes the dividend. */
  function JavaRem(a: int, b: int): (r: int)
    requires b > 0
    ensures a == b * JavaDiv(a, b) + r
    ensures a >= 0 ==> 0 <= r < b
    ensures a < 0 ==> -b < r <= 0
  {
    if a >= 0 then a % b else -((-a) % b)
  }

  /** Quotient and remainder are determined by `n == d * q + r` with `0 <= r < d`. */
  lemma DivModUnique(n: int, d: int, q: int, r: int)
    requires d > 0 && 0 <= r < d && n == d * q + r
    ensures n / d == q && n % d == r
  {
    var q', r' := n / d, n % d;
    assert n == d * q' + r';
    if q' < q {
      assert d * (q - q') == r' - r;
      MulAtLeast(d, q - q');
    } else if q < q' {
      assert d * (q' - q) == r - r';
      MulAtLeast(d, q' - q);
    }
  }

  /** A positive multiple of a positive divisor is at least the divisor. */
  lemma MulAtLeast(d: int, k: int)
    requires d > 0 && k >= 1
    ensures d * k >= d
  {
    if k > 1 {
      MulAtLeast(d, k - 1);
      assert d * k == d * (k - 1) + d;
    }
  }

  /** Dividing by `a` and then by `b` is dividing by `a * b`. */
  lemma DivDiv(n: int, a: int, b: int)
    requires a > 0 && b > 0
    ensures (n / a) / b == n / (a * b)
  {
    var q, r := n / (a * b), n % (a * b);
    assert n == (a * b) * q + r;
    var r1, r2 := r / a, r % a;
    assert r == a * r1 + r2;
    assert n == a * (b * q + r1) + r2;
    DivModUnique(n, a, b * q + r1, r2);
    DivModUnique(n / a, b, q, r1);
  }

  /** Mixed-radix digits: the low digit in base `a` and the next digit in base `b`
      together give the remainder modulo `a * b`. */
  lemma MixedRadix(m: int, a: int, b: int)
    requires a > 0 && b > 0
    ensures a * ((m / a) % b) + m % a == m % (a * b)
  {
    var q, r := m / (a * b), m % (a * b);
    assert m == (a * b) * q + r;
    DivDiv(m, a, b);
    var hi := m / a;
    assert hi / b == q;
    assert hi == b * (hi / b) + hi % b;
    assert m == a * hi + m % a;
    assert m == a * (b * q + hi % b) + m % a;
    assert r == a * (hi % b) + m % a by {
      assert (a * b) * q == a * (b * q);
    }
  }
}

=== FILE: bits.dfy ===
/** Bit selection for the binary hour and minute columns (the engine's
    `getBinaryPaint`): each bit of the shown number picks either the "0"
    paint or the "1" paint. */
module BinaryBits {
  import Arith

  /** A Java `int`. */
  type Int32 = x: int | -0x8000_0000 <= x < 0x8000_0000

  /** Which of the engine's two bit paints a cell is filled with. */
  datatype Bit = Zero | One

  function Pow2(n: nat): (r: nat)
    ensures r > 0
  {
    if n == 0 then 1 else 2 * Pow2(n - 1)
  }

  /** Java's `(num & (1 << i)) != 0`. The distance of an `int` shift is taken
      modulo 32, and bit `k` of a two's-complement value is the parity of its
      floor quotient by 2^k (for k = 31 that is the sign bit). */
  predicate BitSet(num: Int32, i: nat) {
    (num / Pow2(i % 32)) % 2 == 1
  }

  /** The paint choices of `getBinaryPaint(num, bits)`, entry `i` for bit
      `i`. For a non-negative number and at most 32 bits these are its binary
      digits, least significant first; a negative number lights its sign
      cell (bit 31). */
  function BinaryPaint(num: Int32, bits: nat): (r: seq<Bit>)
    ensures |r| == bits
    ensures 0 <= num && bits <= 32 ==> r == NatBits(num, bits)
    ensures num < 0 && bits > 31 ==> r[31] == One
  {
    Pow2Of31();
    seq(bits, i requires 0 <= i < bits => if BitSet(num, i) then One else Zero)
  }

  /** `getBinaryPaint` as the source writes it: one array slot per bit, filled
      by a loop that tests `num & (1 << i)`. */
  method GetBinaryPaint(num: Int32, bits: nat) returns (paints: seq<Bit>)
    ensures |paints| == bits
    ensures forall i :: 0 <= i < bits ==> (paints[i] == One <==> BitSet(num, i))
    ensures paints == BinaryPaint(num, bits)
  {
    paints := [];
    var i := 0;
    while i < bits
      invariant i <= bits && |paints| == i
      invariant forall k :: 0 <= k < i ==> (paints[k] == One <==> BitSet(num, k))
    {
      if (num / Pow2(i % 32)) % 2 == 0 {
        paints := paints + [Zero];
      } else {
        paints := paints + [One];
      }
      i := i + 1;
    }
  }

  /** The number a column of bit choices shows, least significant bit first. */
  function ValueOf(column: seq<Bit>): nat {
    if |column| == 0 then 0
    else (if column[0] == One then 1 else 0) + 2 * ValueOf(column[1..])
  }

  /** The first `k` binary digits of a natural number, least significant first. */
  function NatBits(n: nat, k: nat): seq<Bit> {
    seq(k, i requires 0 <= i < k => if (n / Pow2(i)) % 2 == 1 then One else Zero)
  }

  lemma NatBitsTail(n: nat, k: nat)
    requires k > 0
    ensures NatBits(n, k)[0] == (if n % 2 == 1 then One else Zero)
    ensures NatBits(n, k)[1..] == NatBits(n / 2, k - 1)
  {
    forall i | 0 <= i < k - 1
      ensures NatBits(n, k)[1..][i] == NatBits(n / 2, k - 1)[i]
    {
      Arith.DivDiv(n, 2, Pow2(i));
    }
  }

  /** Reading back the digits of `n` gives `n` when it fits in `k` bits. */
  lemma {:induction false} NatBitsValue(n: nat, k: nat)
    requires n < Pow2(k)
    ensures ValueOf(NatBits(n, k)) == n
  {
    if k > 0 {
      NatBitsTail(n, k);
      NatBitsValue(n / 2, k - 1);
    }
  }

  /** Every column is the digit sequence of the number it shows. */
  lemma {:induction false} ValueOfDigits(column: seq<Bit>)
    ensures ValueOf(column) < Pow2(|column|)
    ensures NatBits(ValueOf(column), |column|) == column
  {
    if |column| > 0 {
      ValueOfDigits(column[1..]);
      NatBitsTail(ValueOf(column), |column|);
    }
  }

  lemma Pow2Monotone(a: nat, b: nat)
    requires a <= b
    ensures Pow2(a) <= Pow2(b)
  {
    if a < b {
      Pow2Monotone(a, b - 1);
    }
  }

  lemma Pow2Of31()
    ensures Pow2(31) == 0x8000_0000
  {
    assert Pow2(8) == 0x100;
    assert Pow2(16) == 0x1_0000;
    assert Pow2(24) == 0x100_0000;
  }

  /** Encoding round trip: the chosen paints spell `num` in binary whenever
      it fits in the column. */
  lemma BinaryPaintShowsValue(num: Int32, bits: nat)
    requires bits <= 32 && 0 <= num < Pow2(bits)
    ensures |BinaryPaint(num, bits)| == bits
    ensures ValueOf(BinaryPaint(num, bits)) == num
  {
    NatBitsValue(num, bits);
  }

  /** Decoding round trip: every pattern of at most 31 cells is the paint
      choice of exactly the number it shows. */
  lemma BinaryPaintOfValue(column: seq<Bit>)
    requires |column| <= 31
    ensures ValueOf(column) < 0x8000_0000
    ensures BinaryPaint(ValueOf(column) as Int32, |column|) == column
  {
    ValueOfDigits(column);
    Pow2Monotone(|column|, 31);
    Pow2Of31();
    assert BinaryPaint(ValueOf(column) as Int32, |column|) == NatBits(ValueOf(column), |column|);
  }

  /** Distinct numbers that fit in the column get distinct patterns. */
  lemma BinaryPaintInjective(a: Int32, b: Int32, bits: nat)
    requires bits <= 32 && 0 <= a < Pow2(bits) && 0 <= b < Pow2(bits)
    requires BinaryPaint(a, bits) == BinaryPaint(b, bits)
    ensures a == b
  {
    BinaryPaintShowsValue(a, bits);
    BinaryPaintShowsValue(b, bits);
  }

  /** The 4-bit hour column shows every hour of `Calendar.HOUR` exactly. */
  lemma HourColumnShowsHour(hour: Int32)
    requires 0 <= hour < 12
    ensures ValueOf(BinaryPaint(hour, 4)) == hour
  {
    assert Pow2(4) == 16;
    BinaryPaintShowsValue(hour, 4);
  }

  /** The 6-bit minute column shows every minute exactly. */
  lemma MinuteColumnShowsMinute(minute: Int32)
    requires 0 <= minute < 60
    ensures ValueOf(BinaryPaint(minute, 6)) == minute
  {
    assert Pow2(6) == 64;
    BinaryPaintShowsValue(minute, 6);
  }

  /** Three o'clock lights the two cells nearest the centre. */
  lemma ThreeOClockPattern()
    ensures BinaryPaint(3, 4) == [One, One, Zero, Zero]
  {
  }
}

=== FILE: complications.dfy ===
/** The static complication tables of the watch-face service: which ids
    exist, which id a screen location has, and which data types each location
    accepts. */
module Complications {

  /** `ConfigRecyclerViewAdapter.ComplicationLocation`: the face has one slot. */
  datatype ComplicationLocation = Center

  /** The complication data types of the wearable support library. */
  datatype ComplicationType =
    | NotConfigured | Empty | ShortText | LongText | RangedValue
    | Icon | SmallImage | LargeImage | NoPermission | NoData

  /** `CENTER_COMPLICATION_ID`. */
  const CenterComplicationId: int := 100

  /** `COMPLICATION_IDS` (`getComplicationIds`). */
  const ComplicationIds: seq<int> := [CenterComplicationId]

  /** The data type of the default centre provider (time and date as short text). */
  const DefaultCenterComplicationType: ComplicationType := ShortText

  /** `getComplicationId`: the id of a location's complication. Provider
      selection needs ids of at least 0, and every id is one the face
      registers. */
  function GetComplicationId(location: ComplicationLocation): (id: int)
    ensures id >= 0 && id in ComplicationIds
  {
    match location
    case Center => CenterComplicationId
  }

  /** `getSupportedComplicationTypes`: the default provider's type is among them. */
  function GetSupportedComplicationTypes(location: ComplicationLocation): (types: seq<ComplicationType>)
    ensures |types| > 0 && DefaultCenterComplicationType in types
  {
    match location
    case Center => [RangedValue, Icon, ShortText, SmallImage, NoPermission]
  }

  /** Distinct locations have distinct ids, every registered id belongs to a
      location, the supported types have no repeats, the default centre
      provider's type is among them, and long text and large images are not
      (the centre slot is a small circle). */
  lemma ComplicationTablesConsistent(a: ComplicationLocation, b: ComplicationLocation)
    ensures a != b ==> GetComplicationId(a) != GetComplicationId(b)
    ensures forall id :: id in ComplicationIds ==> exists l :: GetComplicationId(l) == id
    ensures var types := GetSupportedComplicationTypes(Center);
      (forall i, j :: 0 <= i < j < |types| ==> types[i] != types[j]) &&
      DefaultCenterComplicationType in types && LongText !in types && LargeImage !in types
  {
    assert GetComplicationId(Center) == CenterComplicationId;
  }
}

=== FILE: dial.dfy ===
/** Dial geometry derived from the drawing surface (the engine's
    `onSurfaceChanged`): centre, complication radius, bit segment size and the
    two ring radii, and the complication bounds. Floats are modelled as exact
    reals; the integer steps are the complication size `width / 4` and the
    `(int)` casts of the complication bounds. */
module Dial {
  import opened BinaryBits
  import opened Arith

  /** `n` is `x` with its fraction dropped, rounding toward zero. */
  predicate TruncatesTo(x: real, n: int) {
    if x >= 0.0 then n as real <= x < n as real + 1.0 else n as real - 1.0 < x <= n as real
  }

  /** Java's `(int)` cast of a float, which truncates toward zero. */
  function TruncToInt(x: real): (n: int)
    ensures TruncatesTo(x, n)
  {
    if x >= 0.0 then x.Floor else -((-x).Floor)
  }

  datatype Geometry = Geometry(
    centerX: real,
    centerY: real,
    complicationRadius: real,  // CENTER_COMPLICATION_CIRCLE_RADIUS
    segmentSize: real,         // mBinarySegmentSize
    hourRingRadius: real,      // CENTER_HOUR_RING_RADIUS
    minuteRingRadius: real)    // CENTER_MINUTE_RING_RADIUS

  /** The engine's float fields before the first surface change. */
  const Unset: Geometry := Geometry(0.0, 0.0, 0.0, 0.0, 0.0, 0.0)

  /** The geometry `onSurfaceChanged(width, height)` stores. The columns
      exactly fill the radius: the 4-bit hour column runs from the
      complication edge to the minute ring, the 6-bit minute column from the
      minute ring to the centre's distance from the left edge, and the hour
      ring is the middle of the hour column. */
  function SurfaceGeometry(width: Int32, height: Int32): (g: Geometry)
    ensures 2.0 * g.centerX == width as real && 2.0 * g.centerY == height as real
    ensures g.complicationRadius + 4.0 * g.segmentSize == g.minuteRingRadius
    ensures g.minuteRingRadius + 6.0 * g.segmentSize == g.centerX
    ensures g.hourRingRadius - 2.0 * g.segmentSize == g.complicationRadius
    ensures g.hourRingRadius + 2.0 * g.segmentSize == g.minuteRingRadius
  {
    var centerX := width as real / 2.0;
    var centerY := height as real / 2.0;
    var sizeOfComplication := JavaDiv(width, 4);
    var radius := (sizeOfComplication as real) / 2.0;
    var segment := (centerX - radius) / 10.0;
    var hourRing := radius + segment * 2.0;
    Geometry(centerX, centerY, radius, segment, hourRing, hourRing + segment * 2.0)
  }

  /** The segment leaves room for the 2-pixel cell margin on both sides
      (a segment of at least 4 pixels) exactly when the surface is at least
      106 pixels wide. */
  lemma SegmentFitsMargins(width: Int32, height: Int32)
    requires width >= 0
    ensures SurfaceGeometry(width, height).segmentSize >= 4.0 <==> width >= 106
  {
    var q := JavaDiv(width, 4);
    assert 4 * (width - q) >= 3 * width && 4 * (width - q) <= 3 * width + 3;
    assert width - q >= 80 <==> width >= 106;
    assert SurfaceGeometry(width, height).segmentSize == ((width - q) as real) / 20.0;
  }

  /** An integer rectangle (`android.graphics.Rect`). */
  datatype Bounds = Bounds(left: int, top: int, right: int, bottom: int)

  /** The bounds handed to the centre complication: the square around the
      complication circle, each coordinate truncated to an `int`. */
  function ComplicationBounds(g: Geometry): (b: Bounds)
    ensures TruncatesTo(g.centerX - g.complicationRadius, b.left)
    ensures TruncatesTo(g.centerY - g.complicationRadius, b.top)
    ensures TruncatesTo(g.centerX + g.complicationRadius, b.right)
    ensures TruncatesTo(g.centerY + g.complicationRadius, b.bottom)
  {
    Bounds(TruncToInt(g.centerX - g.complicationRadius),
           TruncToInt(g.centerY - g.complicationRadius),
           TruncToInt(g.centerX + g.complicationRadius),
           TruncToInt(g.centerY + g.complicationRadius))
  }

  /** The complication takes a quarter of the width: its radius is within half
      a pixel below `width / 8`, and exact when the width is a multiple of 4. */
  lemma ComplicationRadiusIsEighthWidth(width: Int32, height: Int32)
    requires width >= 0
    ensures var r := SurfaceGeometry(width, height).complicationRadius;
      (width as real) - 4.0 < 8.0 * r <= width as real &&
      (width % 4 == 0 ==> 8.0 * r == width as real)
  {
  }

  /** For any surface at least 4 pixels wide the radii are strictly ordered
      and the segment is positive: the rings never collapse or cross. */
  lemma RadiiOrdered(width: Int32, height: Int32)
    requires width >= 4
    ensures var g := SurfaceGeometry(width, height);
      0.0 < g.segmentSize &&
      0.0 < g.complicationRadius < g.hourRingRadius < g.minuteRingRadius < g.centerX
  {
  }

  /** On a square surface the complication bounds are a square inside the
      screen, truncation losing less than a pixel on each side. */
  lemma ComplicationBoundsOnScreen(width: Int32)
    requires width >= 0
    ensures var g := SurfaceGeometry(width, width);
      var b := ComplicationBounds(g);
      0 <= b.left <= b.right <= width && b.left == b.top && b.right == b.bottom &&
      b.left as real <= g.centerX - g.complicationRadius < (b.left + 1) as real &&
      b.right as real <= g.centerX + g.complicationRadius < (b.right + 1) as real
  {
  }

  /** A 400 by 400 face: radius 50, segment 15, rings at 80 and 110, and the
      complication occupies pixels 150 to 250. */
  lemma FourHundredPixelFace()
    ensures SurfaceGeometry(400, 400) == Geometry(200.0, 200.0, 50.0, 15.0, 80.0, 110.0)
    ensures ComplicationBounds(SurfaceGeometry(400, 400)) == Bounds(150, 150, 250, 250)
  {
  }
}

=== FILE: frame.dfy ===
/** One frame of the face (the engine's `onDraw`): background, complication,
    then the two binary columns rotated to the hour and minute angles, as a
    list of canvas commands. Drawing reads the engine and never changes it. */
module Frame {
  import opened Paints
  import opened BinaryBits
  import opened Tiling
  import Hands
  import Dial
  import WatchFace

  /** The canvas calls a frame makes. */
  datatype DrawCommand =
    | DrawColor(color: Argb)
    | DrawCircle(cx: real, cy: real, radius: real, paint: Paint)
    | DrawComplications(nowMs: int)
    | Save
    | Rotate(degrees: real, px: real, py: real)
    | DrawRect(rect: Rect, paint: Paint)
    | Restore

  /** `drawBackground`: plain black on ambient low-bit or burn-in displays,
      otherwise the background colour and the ring around the hour column. */
  function DrawBackground(s: WatchFace.Engine): (r: seq<DrawCommand>)
    ensures |r| == 1 <==> s.ambient && (s.lowBitAmbient || s.burnInProtection)
    ensures |r| == 1 ==> r == [DrawColor(Black)]
    ensures |r| != 1 ==>
      r == [DrawColor(s.paints.background.color),
            DrawCircle(s.geometry.centerX, s.geometry.centerY, s.geometry.hourRingRadius, s.paints.backgroundRing)]
  {
    if s.ambient && (s.lowBitAmbient || s.burnInProtection) then
      [DrawColor(Black)]
    else
      [DrawColor(s.paints.background.color),
       DrawCircle(s.geometry.centerX, s.geometry.centerY, s.geometry.hourRingRadius, s.paints.backgroundRing)]
  }

  function BitPaint(p: WatchPaints, b: Bit): Paint {
    if b == One then p.binary1 else p.binary0
  }

  /** `drawBinaryLine`: one rectangle per bit (see `DrawBinaryLineCells`). */
  function DrawBinaryLine(s: WatchFace.Engine, startX: real, startY: real, num: Int32, bits: nat): (r: seq<DrawCommand>)
    ensures |r| == bits
  {
    var cells := BinaryLine(startX, startY, num, bits, s.geometry.segmentSize);
    seq(|cells|, i requires 0 <= i < |cells| => DrawRect(cells[i].rect, BitPaint(s.paints, cells[i].bit)))
  }

  /** What `drawBinaryLine` draws: `bits` rectangles, cell `i` in slot `i`,
      filled with the "1" paint exactly when bit `i` of `num` is set and
      with the "0" paint otherwise. */
  lemma DrawBinaryLineCells(s: WatchFace.Engine, startX: real, startY: real, num: Int32, bits: nat)
    ensures var r := DrawBinaryLine(s, startX, startY, num, bits);
      |r| == bits &&
      forall i :: 0 <= i < bits ==>
        r[i] == DrawRect(CellRect(startX, startY, s.geometry.segmentSize, BinaryBitMargin, i),
                         if BitSet(num, i) then s.paints.binary1 else s.paints.binary0)
  {
  }

  /** `drawWatchHands` at a local instant: rotate to the hour angle, draw the
      4-bit hour column from the complication edge, rotate on by the
      difference to the minute angle, draw the 6-bit minute column from the
      minute ring, restore. */
  function DrawWatchHands(s: WatchFace.Engine, localMs: int): (r: seq<DrawCommand>)
    ensures |r| == 14 && r[0] == Save && r[13] == Restore
    ensures r[1].Rotate? && r[6].Rotate? &&
      r[1].px == r[6].px == s.geometry.centerX && r[1].py == r[6].py == s.geometry.centerY
    ensures forall i :: 0 <= i < 14 && i != 0 && i != 1 && i != 6 && i != 13 ==> r[i].DrawRect?
  {
    var t := Hands.CalendarFields(localMs);
    var g := s.geometry;
    var hoursRotation := Hands.HoursRotation(t.hour, t.minute);
    var minutesRotation := Hands.MinutesRotation(t.minute, t.second);
    [Save, Rotate(hoursRotation, g.centerX, g.centerY)]
    + DrawBinaryLine(s, g.centerX, g.centerY - g.complicationRadius, t.hour, 4)
    + [Rotate(minutesRotation - hoursRotation, g.centerX, g.centerY)]
    + DrawBinaryLine(s, g.centerX, g.centerY - g.minuteRingRadius, t.minute, 6)
    + [Restore]
  }

  /** `onDraw` at wall-clock time `nowMs` in a zone `zoneOffsetMs` ahead of UTC. */
  function OnDraw(s: WatchFace.Engine, nowMs: int, zoneOffsetMs: int): (r: seq<DrawCommand>)
    ensures |r| >= 15 && r[|r| - 15] == DrawComplications(nowMs)
    ensures r[..|r| - 15] == DrawBackground(s)
    ensures forall i :: 0 <= i < |r| - 15 ==> r[i].DrawColor? || r[i].DrawCircle?
    ensures forall i :: 0 <= i < |r| ==> (r[i].DrawComplications? <==> i == |r| - 15)
    ensures r[|r| - 14..] == DrawWatchHands(s, nowMs + zoneOffsetMs)
  {
    DrawBackground(s) + [DrawComplications(nowMs)] + DrawWatchHands(s, nowMs + zoneOffsetMs)
  }

  /** The number a run of drawn rectangles shows, reading a rectangle as a 1
      exactly when it is filled with the paint `one`. */
  function ReadColumn(cmds: seq<DrawCommand>, one: Paint): nat {
    ValueOf(seq(|cmds|, i requires 0 <= i < |cmds| =>
      if cmds[i].DrawRect? && cmds[i].paint == one then One else Zero))
  }

  /** Ambient safety: in ambient mode every colour the background draws is
      black, and on a low-bit or burn-in display the background is one black
      fill with no ring. In active mode it is the accent's 500 shade and the
      ring in the 800 shade at the hour ring radius. */
  lemma BackgroundFollowsMode(s: WatchFace.Engine)
    requires WatchFace.ValidCore(s)
    ensures s.ambient && (s.lowBitAmbient || s.burnInProtection) ==> DrawBackground(s) == [DrawColor(Black)]
    ensures s.ambient ==>
      forall c :: c in DrawBackground(s) ==>
        (c.DrawColor? ==> c.color == Black) && (c.DrawCircle? ==> c.paint.color == Black)
    ensures !s.ambient ==>
      |DrawBackground(s)| == 2 &&
      DrawBackground(s)[0] == DrawColor(s.colors.background) &&
      DrawBackground(s)[1].DrawCircle? &&
      DrawBackground(s)[1].radius == s.geometry.hourRingRadius &&
      DrawBackground(s)[1].paint.color == s.colors.backgroundRing
  {
  }

  /** A column drawn for `num` reads back as `num` whenever the two bit
      paints differ and `num` fits in the column. */
  lemma DrawnColumnReadsBack(s: WatchFace.Engine, startX: real, startY: real, num: Int32, bits: nat)
    requires bits <= 32 && 0 <= num < Pow2(bits)
    requires s.paints.binary0 != s.paints.binary1
    ensures |DrawBinaryLine(s, startX, startY, num, bits)| == bits
    ensures ReadColumn(DrawBinaryLine(s, startX, startY, num, bits), s.paints.binary1) == num
  {
    var cmds := DrawBinaryLine(s, startX, startY, num, bits);
    var cells := BinaryLine(startX, startY, num, bits, s.geometry.segmentSize);
    var shown := BinaryPaint(num, bits);
    BinaryPaintShowsValue(num, bits);
    var read := seq(|cmds|, i requires 0 <= i < |cmds| =>
                  if cmds[i].DrawRect? && cmds[i].paint == s.paints.binary1 then One else Zero);
    forall i | 0 <= i < bits
      ensures read[i] == shown[i]
    {
      assert cells[i].bit == shown[i];
      assert cmds[i] == DrawRect(cells[i].rect, BitPaint(s.paints, cells[i].bit));
    }
    assert read == shown;
  }

  /** The hand section's two columns are the `drawBinaryLine` calls for the
      hour and the minute. */
  lemma HandColumns(s: WatchFace.Engine, localMs: int)
    ensures var h := DrawWatchHands(s, localMs);
      var t := Hands.CalendarFields(localMs);
      var g := s.geometry;
      |h| == 14 &&
      h[2..6] == DrawBinaryLine(s, g.centerX, g.centerY - g.complicationRadius, t.hour, 4) &&
      h[7..13] == DrawBinaryLine(s, g.centerX, g.centerY - g.minuteRingRadius, t.minute, 6)
  {
    var t := Hands.CalendarFields(localMs);
    var g := s.geometry;
    var hourLine := DrawBinaryLine(s, g.centerX, g.centerY - g.complicationRadius, t.hour, 4);
    var minuteLine := DrawBinaryLine(s, g.centerX, g.centerY - g.minuteRingRadius, t.minute, 6);
    var hoursRotation := Hands.HoursRotation(t.hour, t.minute);
    var minutesRotation := Hands.MinutesRotation(t.minute, t.second);
    var h := DrawWatchHands(s, localMs);
    SlicesOfHandSection(Save, Rotate(hoursRotation, g.centerX, g.centerY), hourLine,
                        Rotate(minutesRotation - hoursRotation, g.centerX, g.centerY), minuteLine, Restore);
  }

  /** Where the two columns sit in the hand section's command list. */
  lemma SlicesOfHandSection(save: DrawCommand, first: DrawCommand, hourLine: seq<DrawCommand>,
                            second: DrawCommand, minuteLine: seq<DrawCommand>, restore: DrawCommand)
    requires |hourLine| == 4 && |minuteLine| == 6
    ensures var h := [save, first] + hourLine + [second] + minuteLine + [restore];
      h[2..6] == hourLine && h[7..13] == minuteLine
  {
    var h := [save, first] + hourLine + [second] + minuteLine + [restore];
    assert h[2..6] == hourLine;
    assert h[7..13] == minuteLine;
  }

  /** The hands show the time: the frame's hand section is save, hour
      rotation, four hour cells, the rotation on to the minute angle, six
      minute cells, restore; the cells read back as the hour and the minute,
      and the two rotations add up to the minute angle. */
  lemma HandsShowTime(s: WatchFace.Engine, localMs: int)
    requires s.paints.binary0 != s.paints.binary1
    ensures var h := DrawWatchHands(s, localMs);
      var t := Hands.CalendarFields(localMs);
      |h| == 14 && h[0] == Save && h[13] == Restore &&
      h[1].Rotate? && h[1].degrees == Hands.HoursRotation(t.hour, t.minute) &&
      h[6].Rotate? && h[1].degrees + h[6].degrees == Hands.MinutesRotation(t.minute, t.second) &&
      ReadColumn(h[2..6], s.paints.binary1) == t.hour &&
      ReadColumn(h[7..13], s.paints.binary1) == t.minute
  {
    var t := Hands.CalendarFields(localMs);
    var g := s.geometry;
    assert Pow2(4) == 16 && Pow2(6) == 64;
    DrawnColumnReadsBack(s, g.centerX, g.centerY - g.complicationRadius, t.hour, 4);
    DrawnColumnReadsBack(s, g.centerX, g.centerY - g.minuteRingRadius, t.minute, 6);
    HandColumns(s, localMs);
  }

  /** Before rotation, on a surface at least 4 pixels wide, the far edge of
      every hour cell stays short of the minute ring and its near edge beyond
      the complication edge; likewise the minute cells between the minute
      ring and the centre's distance from the edge. A cell's far-edge
      argument is at most its near-edge argument (`bottom <= top` here, which
      Android reads as a rectangle given upside down) exactly when the
      surface is at least 106 pixels wide, and then each cell lies wholly
      inside its band, so the columns overlap neither each other nor the
      complication. Narrower surfaces also get `left > right`. */
  lemma ColumnsStayInTheirBands(s: WatchFace.Engine, localMs: int, width: Int32, height: Int32)
    requires width >= 4 && s.geometry == Dial.SurfaceGeometry(width, height)
    ensures var h := DrawWatchHands(s, localMs);
      var g := s.geometry;
      |h| == 14 &&
      (forall i :: 2 <= i < 6 ==>
         (h[i].DrawRect? &&
          g.centerY - g.minuteRingRadius <= h[i].rect.bottom && h[i].rect.top <= g.centerY - g.complicationRadius)) &&
      (forall i :: 7 <= i < 13 ==>
         (h[i].DrawRect? &&
          g.centerY - g.centerX <= h[i].rect.bottom && h[i].rect.top <= g.centerY - g.minuteRingRadius))
    ensures var h := DrawWatchHands(s, localMs);
      h[2].DrawRect? && (width >= 106 <==> h[2].rect.bottom <= h[2].rect.top)
    ensures var h := DrawWatchHands(s, localMs);
      var g := s.geometry;
      width >= 106 ==>
        (forall i :: 2 <= i < 6 ==>
           (h[i].DrawRect? &&
            g.centerY - g.minuteRingRadius <= h[i].rect.bottom <= h[i].rect.top <= g.centerY - g.complicationRadius &&
            g.centerX - g.segmentSize / 2.0 <= h[i].rect.left <= h[i].rect.right <= g.centerX + g.segmentSize / 2.0)) &&
        (forall i :: 7 <= i < 13 ==>
           (h[i].DrawRect? &&
            g.centerY - g.centerX <= h[i].rect.bottom <= h[i].rect.top <= g.centerY - g.minuteRingRadius &&
            g.centerX - g.segmentSize / 2.0 <= h[i].rect.left <= h[i].rect.right <= g.centerX + g.segmentSize / 2.0))
  {
    Dial.SegmentFitsMargins(width, height);
    var t := Hands.CalendarFields(localMs);
    var g := s.geometry;
    Dial.RadiiOrdered(width, height);
    var h := DrawWatchHands(s, localMs);
    var hourStart := g.centerY - g.complicationRadius;
    var minuteStart := g.centerY - g.minuteRingRadius;
    forall i | 2 <= i < 6
      ensures h[i].DrawRect? && minuteStart <= h[i].rect.bottom && h[i].rect.top <= hourStart
      ensures width >= 106 ==>
        minuteStart <= h[i].rect.bottom <= h[i].rect.top <= hourStart &&
        g.centerX - g.segmentSize / 2.0 <= h[i].rect.left <= h[i].rect.right <= g.centerX + g.segmentSize / 2.0
    {
      CellWithinColumn(g.centerX, hourStart, g.segmentSize, BinaryBitMargin, 4, i - 2);
      assert h[i].rect == CellRect(g.centerX, hourStart, g.segmentSize, BinaryBitMargin, i - 2);
    }
    forall i | 7 <= i < 13
      ensures h[i].DrawRect? && g.centerY - g.centerX <= h[i].rect.bottom && h[i].rect.top <= minuteStart
      ensures width >= 106 ==>
        g.centerY - g.centerX <= h[i].rect.bottom <= h[i].rect.top <= minuteStart &&
        g.centerX - g.segmentSize / 2.0 <= h[i].rect.left <= h[i].rect.right <= g.centerX + g.segmentSize / 2.0
    {
      CellWithinColumn(g.centerX, minuteStart, g.segmentSize, BinaryBitMargin, 6, i - 7);
      assert h[i].rect == CellRect(g.centerX, minuteStart, g.segmentSize, BinaryBitMargin, i - 7);
    }
  }
}

=== FILE: hands.dfy ===
/** Hand angles (the rotation part of the engine's `drawWatchHands`) and the
    calendar fields they are computed from. */
module Hands {
  import Arith

  /** The `Calendar` fields the engine reads: `HOUR` (0 to 11), `MINUTE`, `SECOND`. */
  datatype TimeFields = TimeFields(hour: int, minute: int, second: int)

  const MillisPerSecond: int := 1000
  const MillisPerMinute: int := 60_000
  const MillisPerHour: int := 3_600_000

  /** The fields of a local wall-clock instant, in milliseconds since the
      epoch of the local time scale (UTC milliseconds plus the zone offset). */
  function CalendarFields(localMs: int): (t: TimeFields)
    ensures 0 <= t.hour < 12 && 0 <= t.minute < 60 && 0 <= t.second < 60
  {
    TimeFields((localMs / MillisPerHour) % 12,
               (localMs / MillisPerMinute) % 60,
               (localMs / MillisPerSecond) % 60)
  }

  /** `hoursRotation`: 30 degrees per hour plus half a degree per minute. The
      hand stays in its hour's 30-degree sector, and within one turn. */
  function HoursRotation(hour: int, minute: int): (r: real)
    ensures 0 <= minute < 60 ==> (hour * 30) as real <= r < ((hour + 1) * 30) as real
    ensures 0 <= hour < 12 && 0 <= minute < 60 ==> 0.0 <= r < 360.0
  {
    (hour * 30) as real + minute as real / 2.0
  }

  /** `minutesRotation`: 6 degrees per minute plus a tenth of a degree per
      second. The hand stays in its minute's 6-degree sector, and within one
      turn. */
  function MinutesRotation(minute: int, second: int): (r: real)
    ensures 0 <= second < 60 ==> (minute * 6) as real <= r < ((minute + 1) * 6) as real
    ensures 0 <= minute < 60 && 0 <= second < 60 ==> 0.0 <= r < 360.0
  {
    minute as real * 6.0 + second as real / 10.0
  }

  /** Within an hour the hour angle advances by exactly half a degree per
      minute, and the last minute of an hour meets the next hour's first. */
  lemma HourHandIsContinuous(hour: int, minute: int)
    ensures HoursRotation(hour, minute + 1) == HoursRotation(hour, minute) + 0.5
    ensures HoursRotation(hour, 59) + 0.5 == HoursRotation(hour + 1, 0)
    ensures HoursRotation(11, 59) + 0.5 == HoursRotation(0, 0) + 360.0
  {
  }

  /** The hour angle of an instant is half the number of whole minutes into
      the current twelve-hour half of the day. */
  lemma HoursRotationOfInstant(localMs: int)
    ensures var t := CalendarFields(localMs);
      HoursRotation(t.hour, t.minute) == ((localMs / MillisPerMinute) % 720) as real / 2.0
  {
    var m := localMs / MillisPerMinute;
    Arith.DivDiv(localMs, MillisPerMinute, 60);
    Arith.MixedRadix(m, 60, 12);
    var t := CalendarFields(localMs);
    assert t.hour == (m / 60) % 12;
    assert t.minute == m % 60;
    assert 60 * t.hour + t.minute == m % 720;
  }

  /** The minute angle of an instant is a tenth of the number of whole seconds
      into the current hour. */
  lemma MinutesRotationOfInstant(localMs: int)
    ensures var t := CalendarFields(localMs);
      MinutesRotation(t.minute, t.second) == ((localMs / MillisPerSecond) % 3600) as real / 10.0
  {
    var s := localMs / MillisPerSecond;
    Arith.DivDiv(localMs, MillisPerSecond, 60);
    Arith.MixedRadix(s, 60, 60);
    var t := CalendarFields(localMs);
    assert t.minute == (s / 60) % 60;
    assert t.second == s % 60;
    assert 60 * t.minute + t.second == s % 3600;
  }

  /** One minute later the hour angle is exactly half a degree further on,
      except at the twelve o'clock roll-over, where 359.5 becomes 0. */
  lemma HourAngleAdvancesEachMinute(localMs: int)
    ensures var a := HoursRotation(CalendarFields(localMs).hour, CalendarFields(localMs).minute);
      var b := HoursRotation(CalendarFields(localMs + MillisPerMinute).hour,
                             CalendarFields(localMs + MillisPerMinute).minute);
      b == a + 0.5 || (a == 359.5 && b == 0.0)
  {
    HoursRotationOfInstant(localMs);
    HoursRotationOfInstant(localMs + MillisPerMinute);
    var m := localMs / MillisPerMinute;
    Arith.DivModUnique(localMs + MillisPerMinute, MillisPerMinute, m + 1, localMs % MillisPerMinute);
    var k := m % 720;
    if k < 719 {
      Arith.DivModUnique(m + 1, 720, m / 720, k + 1);
    } else {
      Arith.DivModUnique(m + 1, 720, m / 720 + 1, 0);
    }
  }

  /** One second later the minute angle is exactly a tenth of a degree further
      on, except at the top of the hour, where 359.9 becomes 0. */
  lemma MinuteAngleAdvancesEachSecond(localMs: int)
    ensures var a := MinutesRotation(CalendarFields(localMs).minute, CalendarFields(localMs).second);
      var b := MinutesRotation(CalendarFields(localMs + MillisPerSecond).minute,
                               CalendarFields(localMs + MillisPerSecond).second);
      b == a + 0.1 || (a == 359.9 && b == 0.0)
  {
    MinutesRotationOfInstant(localMs);
    MinutesRotationOfInstant(localMs + MillisPerSecond);
    var s := localMs / MillisPerSecond;
    Arith.DivModUnique(localMs + MillisPerSecond, MillisPerSecond, s + 1, localMs % MillisPerSecond);
    var k := s % 3600;
    if k < 3599 {
      Arith.DivModUnique(s + 1, 3600, s / 3600, k + 1);
    } else {
      Arith.DivModUnique(s + 1, 3600, s / 3600 + 1, 0);
    }
  }

  /** At 3:32 the hour column points at 106 degrees and the minute column at
      192 degrees plus a tenth per second. */
  lemma ThreeThirtyTwo(second: int)
    ensures HoursRotation(3, 32) == 106.0
    ensures MinutesRotation(32, second) == 192.0 + second as real / 10.0
  {
  }
}

=== FILE: paints.dfy ===
/** Colours and paint styles of the watch face (the engine's
    `updateWatchPaintStyles` and the complication text palette). Colours are
    32-bit ARGB values as Android stores them, written unsigned. */
module Paints {

  type Argb = c: int | 0 <= c < 0x1_0000_0000
  type Alpha = a: int | 0 <= a < 0x100

  /** `Color.BLACK`. */
  const Black: Argb := 0xFF00_0000
  /** Alpha of the bit paints in mute mode. */
  const MutedAlpha: Alpha := 100
  /** Alpha of the bit paints when mute mode ends. */
  const OpaqueAlpha: Alpha := 255

  function AlphaOf(c: Argb): Alpha {
    c / 0x100_0000
  }

  function RgbOf(c: Argb): int {
    c % 0x100_0000
  }

  /** `Paint.setAlpha`: replaces the alpha byte, keeps red, green and blue. */
  function WithAlpha(c: Argb, a: Alpha): (r: Argb)
    ensures AlphaOf(r) == a && RgbOf(r) == RgbOf(c)
  {
    RgbOf(c) + a * 0x100_0000
  }

  datatype Style = Fill | Stroke

  /** `setShadowLayer(SHADOW_RADIUS, 0, 0, color)` or no shadow layer. */
  datatype Shadow = NoShadow | ShadowLayer(color: Argb)

  /** The state of an `android.graphics.Paint` that the face uses. */
  datatype Paint = Paint(color: Argb, antiAlias: bool, shadow: Shadow, style: Style, strokeWidth: real)

  /** `new Paint()`: opaque black, no anti-aliasing, filled. */
  const NewPaint: Paint := Paint(Black, false, NoShadow, Fill, 0.0)

  /** `Paint.setColor`: the whole ARGB value, alpha included, is replaced. */
  function SetColor(p: Paint, c: Argb): Paint {
    p.(color := c)
  }

  function SetAlpha(p: Paint, a: Alpha): Paint {
    p.(color := WithAlpha(p.color, a))
  }

  /** The colour resources of the app (`R.color.*`), fixed for its lifetime. */
  datatype Resources = Resources(
    binaryBit0: Argb,
    binaryBit1: Argb,
    binaryBit0Ambient: Argb,
    binaryBit1Ambient: Argb,
    bitsShadow: Argb,
    complicationLightPrimary: Argb,
    complicationLightSecondary: Argb,
    complicationDarkPrimary: Argb,
    complicationDarkSecondary: Argb)

  /** The user's accent colour family as the material palette resolves it:
      its 500 and 800 shades and whether the 800 shade counts as dark. */
  datatype Accent = Accent(shade500: Argb, shade800: Argb, shade800IsDark: bool)

  /** The colour fields `loadSavedPreferences` fills in. */
  datatype LoadedColors = LoadedColors(
    background: Argb,        // mBackgroundColor
    backgroundRing: Argb,    // mBackgroundRingColor
    binary0: Argb,           // mWatchBinary0Color
    binary1: Argb,           // mWatchBinary1Color
    handShadow: Argb,        // mWatchHandShadowColor
    isBackgroundDark: bool)  // mIsBackgroundDark

  /** The engine's four paints. */
  datatype WatchPaints = WatchPaints(binary0: Paint, binary1: Paint, background: Paint, backgroundRing: Paint)

  /** Anti-aliasing is on except in ambient mode on a low-bit display. */
  predicate AntiAliasFor(ambient: bool, lowBitAmbient: bool) {
    !(ambient && lowBitAmbient)
  }

  /** The bit paints cast a shadow only in active mode. */
  function BitShadowFor(ambient: bool, colors: LoadedColors): Shadow {
    if ambient then NoShadow else ShadowLayer(colors.handShadow)
  }

  /** The colour each paint has in a mode, up to the alpha of the bit paints:
      black backgrounds and the ambient bit colours in ambient mode, the
      accent shades and the bit colours in active mode. */
  predicate ColorsMatchMode(p: WatchPaints, ambient: bool, colors: LoadedColors, res: Resources) {
    if ambient then
      p.background.color == Black && p.backgroundRing.color == Black &&
      RgbOf(p.binary0.color) == RgbOf(res.binaryBit0Ambient) &&
      RgbOf(p.binary1.color) == RgbOf(res.binaryBit1Ambient)
    else
      p.background.color == colors.background && p.backgroundRing.color == colors.backgroundRing &&
      RgbOf(p.binary0.color) == RgbOf(colors.binary0) &&
      RgbOf(p.binary1.color) == RgbOf(colors.binary1)
  }

  /** The style fields `updateWatchPaintStyles` does not touch agree. */
  predicate SameUntouched(p: WatchPaints, q: WatchPaints) {
    p.background.shadow == q.background.shadow && p.background.style == q.background.style &&
    p.background.strokeWidth == q.background.strokeWidth &&
    p.backgroundRing.shadow == q.backgroundRing.shadow && p.backgroundRing.style == q.backgroundRing.style &&
    p.backgroundRing.strokeWidth == q.backgroundRing.strokeWidth &&
    p.binary0.style == q.binary0.style && p.binary0.strokeWidth == q.binary0.strokeWidth &&
    p.binary1.style == q.binary1.style && p.binary1.strokeWidth == q.binary1.strokeWidth
  }

  /** `updateWatchPaintStyles` as written: every paint gets its colour with
      `setColor`, which also overwrites any alpha set earlier, so the bit
      paints end up with the alpha of the new colour whatever the mute mode. */
  function UpdateWatchPaintStylesAsWritten(p: WatchPaints, ambient: bool, lowBitAmbient: bool,
                                           colors: LoadedColors, res: Resources): (r: WatchPaints)
    ensures ColorsMatchMode(r, ambient, colors, res)
    ensures r.binary0.antiAlias == r.binary1.antiAlias == r.background.antiAlias ==
            r.backgroundRing.antiAlias == AntiAliasFor(ambient, lowBitAmbient)
    ensures r.binary0.shadow == r.binary1.shadow == BitShadowFor(ambient, colors)
    ensures AlphaOf(r.binary0.color) == AlphaOf(if ambient then res.binaryBit0Ambient else colors.binary0)
    ensures AlphaOf(r.binary1.color) == AlphaOf(if ambient then res.binaryBit1Ambient else colors.binary1)
    ensures SameUntouched(r, p)
  {
    if ambient then
      WatchPaints(
        SetColor(p.binary0, res.binaryBit0Ambient).(antiAlias := !lowBitAmbient, shadow := NoShadow),
        SetColor(p.binary1, res.binaryBit1Ambient).(antiAlias := !lowBitAmbient, shadow := NoShadow),
        SetColor(p.background, Black).(antiAlias := !lowBitAmbient),
        SetColor(p.backgroundRing, Black).(antiAlias := !lowBitAmbient))
    else
      WatchPaints(
        SetColor(p.binary0, colors.binary0).(antiAlias := true, shadow := ShadowLayer(colors.handShadow)),
        SetColor(p.binary1, colors.binary1).(antiAlias := true, shadow := ShadowLayer(colors.handShadow)),
        SetColor(p.background, colors.background).(antiAlias := true),
        SetColor(p.backgroundRing, colors.backgroundRing).(antiAlias := true))
  }

  /** `updateWatchPaintStyles` with mute dimming kept: after the colours are
      set, the bit paints get the muted alpha back while mute mode is on. */
  function UpdateWatchPaintStyles(p: WatchPaints, ambient: bool, lowBitAmbient: bool, muted: bool,
                                  colors: LoadedColors, res: Resources): (r: WatchPaints)
    ensures ColorsMatchMode(r, ambient, colors, res)
    ensures r.binary0.antiAlias == r.binary1.antiAlias == r.background.antiAlias ==
            r.backgroundRing.antiAlias == AntiAliasFor(ambient, lowBitAmbient)
    ensures r.binary0.shadow == r.binary1.shadow == BitShadowFor(ambient, colors)
    ensures muted ==> AlphaOf(r.binary0.color) == MutedAlpha && AlphaOf(r.binary1.color) == MutedAlpha
    ensures !muted ==> r == UpdateWatchPaintStylesAsWritten(p, ambient, lowBitAmbient, colors, res)
    ensures SameUntouched(r, p)
  {
    var styled := UpdateWatchPaintStylesAsWritten(p, ambient, lowBitAmbient, colors, res);
    if muted then
      styled.(binary0 := SetAlpha(styled.binary0, MutedAlpha), binary1 := SetAlpha(styled.binary1, MutedAlpha))
    else
      styled
  }

  /** The resolved styles depend only on the mode and the loaded colours, not
      on what the paints held before: leaving ambient mode restores exactly
      the active look, whatever happened in between. */
  lemma StylesForgetHistory(p: WatchPaints, q: WatchPaints, ambient: bool, lowBitAmbient: bool, muted: bool,
                            colors: LoadedColors, res: Resources)
    requires SameUntouched(p, q)
    ensures UpdateWatchPaintStyles(p, ambient, lowBitAmbient, muted, colors, res) ==
            UpdateWatchPaintStyles(q, ambient, lowBitAmbient, muted, colors, res)
  {
  }

  /** Resolving the styles twice is resolving them once. */
  lemma StylesIdempotent(p: WatchPaints, ambient: bool, lowBitAmbient: bool, muted: bool,
                         colors: LoadedColors, res: Resources)
    ensures var once := UpdateWatchPaintStyles(p, ambient, lowBitAmbient, muted, colors, res);
      UpdateWatchPaintStyles(once, ambient, lowBitAmbient, muted, colors, res) == once
  {
    var once := UpdateWatchPaintStyles(p, ambient, lowBitAmbient, muted, colors, res);
    StylesForgetHistory(once, p, ambient, lowBitAmbient, muted, colors, res);
  }

  /** Complication text colours: primary for text and ranged values,
      secondary for titles and icons. */
  datatype TextColors = TextColors(primary: Argb, secondary: Argb)

  /** `setComplicationsActiveAndAmbientColors`: light text on a dark
      background ring, dark text otherwise. */
  function ComplicationTextColors(isBackgroundDark: bool, res: Resources): (r: TextColors)
    ensures r == TextColors(res.complicationLightPrimary, res.complicationLightSecondary) <==>
            isBackgroundDark || (res.complicationDarkPrimary == res.complicationLightPrimary &&
                                 res.complicationDarkSecondary == res.complicationLightSecondary)
  {
    if isBackgroundDark then
      TextColors(res.complicationLightPrimary, res.complicationLightSecondary)
    else
      TextColors(res.complicationDarkPrimary, res.complicationDarkSecondary)
  }
}

=== FILE: tiling.dfy ===
/** Cell layout of one binary column (the engine's `drawBinaryLine`): one
    square cell per bit, stacked outward from the start point, bit 0 nearest.
    Coordinates are screen coordinates before the canvas rotation, so the
    column grows towards smaller `y`. */
module Tiling {
  import opened BinaryBits

  /** The four arguments of `Canvas.drawRect` in call order. For a cell the
      `top` argument is its edge nearest the start point, which is the larger
      `y`; `bottom` is the far edge. Android's own convention is
      `top <= bottom`, so every cell the column draws is handed over with
      its vertical pair reversed. */
  datatype Rect = Rect(left: real, top: real, right: real, bottom: real)

  /** One drawn cell: where it goes and which bit paint fills it. */
  datatype Cell = Cell(rect: Rect, bit: Bit)

  /** `BINARY_BIT_MARGIN`: inset of each cell from its slot on every side. */
  const BinaryBitMargin: real := 2.0

  /** Cell `i` of a column anchored at (`startX`, `startY`) with segment size
      `seg`, inset by `margin`: a square of side `seg - 2 * margin` centred
      on the column's axis and on the middle of its slot. The arguments
      satisfy `left <= right` and `bottom <= top` exactly when the segment
      is at least twice the margin; otherwise both pairs are reversed. */
  function CellRect(startX: real, startY: real, seg: real, margin: real, i: nat): (r: Rect)
    ensures r.right - r.left == seg - 2.0 * margin && r.top - r.bottom == seg - 2.0 * margin
    ensures r.left + r.right == 2.0 * startX
    ensures r.top + r.bottom == 2.0 * startY - seg * ((2 * i + 1) as real)
    ensures seg >= 2.0 * margin <==> (r.left <= r.right && r.bottom <= r.top)
  {
    var binaryRadius := seg / 2.0;
    Rect(startX - binaryRadius + margin,
         startY - seg * (i as real) - margin,
         (startX + binaryRadius) - margin,
         (startY - seg * ((i + 1) as real)) + margin)
  }

  /** The un-inset slot of bit `i`: the band from `seg * i` to `seg * (i + 1)`
      beyond the start point, one segment wide. */
  function Slot(startX: real, startY: real, seg: real, i: nat): Rect {
    Rect(startX - seg / 2.0, startY - seg * (i as real),
         startX + seg / 2.0, startY - seg * ((i + 1) as real))
  }

  /** What `drawBinaryLine(canvas, startX, startY, num, bits)` draws, in
      order: one cell per bit, cell `i` in slot `i`, filled with the "1"
      paint exactly when bit `i` of `num` is set. */
  function BinaryLine(startX: real, startY: real, num: Int32, bits: nat, seg: real): (r: seq<Cell>)
    ensures |r| == bits
    ensures forall i :: 0 <= i < bits ==>
      r[i].rect == CellRect(startX, startY, seg, BinaryBitMargin, i) && (r[i].bit == One <==> BitSet(num, i))
  {
    var paints := BinaryPaint(num, bits);
    seq(bits, i requires 0 <= i < bits => Cell(CellRect(startX, startY, seg, BinaryBitMargin, i), paints[i]))
  }

  /** Each cell is its slot shrunk by the margin on all four sides. */
  lemma CellIsInsetSlot(startX: real, startY: real, seg: real, margin: real, i: nat)
    ensures var c, s := CellRect(startX, startY, seg, margin, i), Slot(startX, startY, seg, i);
      c.left == s.left + margin && c.right == s.right - margin &&
      c.top == s.top - margin && c.bottom == s.bottom + margin
  {
  }

  /** Consecutive slots share their boundary: the column has no gaps. */
  lemma SlotsAbut(startX: real, startY: real, seg: real, i: nat)
    ensures Slot(startX, startY, seg, i).bottom == Slot(startX, startY, seg, i + 1).top
  {
  }

  /** Bit 0 is nearest the start point, and every further bit sits exactly one
      segment further out. */
  lemma CellsStepOutward(startX: real, startY: real, seg: real, margin: real, i: nat)
    ensures startY - CellRect(startX, startY, seg, margin, 0).top == margin
    ensures CellRect(startX, startY, seg, margin, i + 1).top == CellRect(startX, startY, seg, margin, i).top - seg
    ensures CellRect(startX, startY, seg, margin, i + 1).bottom == CellRect(startX, startY, seg, margin, i).bottom - seg
  {
  }

  /** With a non-negative segment and margin, the `drawRect` arguments of a
      cell further out lie wholly beyond those of a cell nearer in. When the
      segment is at least twice the margin each cell's arguments span a
      square (`CellRect`), so the cells never overlap. */
  lemma CellsDoNotOverlap(startX: real, startY: real, seg: real, margin: real, i: nat, j: nat)
    requires seg >= 0.0 && margin >= 0.0 && i < j
    ensures CellRect(startX, startY, seg, margin, j).top <= CellRect(startX, startY, seg, margin, i).bottom
  {
    var gap := (j - i - 1) as real;
    assert seg * (j as real) == seg * ((i + 1) as real) + seg * gap;
    assert seg * gap >= 0.0;
  }

  /** Every cell of a `bits`-cell column keeps its far edge inside the band
      `[startY - seg * bits, startY]`, its near edge at or below `startY` and
      its sides within half a segment of `startX`. When the segment is at
      least twice the margin, `bottom <= top` and `left <= right`, so all
      four `drawRect` arguments lie inside that box; otherwise both pairs
      are reversed and only the one-sided bounds hold. */
  lemma CellWithinColumn(startX: real, startY: real, seg: real, margin: real, bits: nat, i: nat)
    requires seg >= 0.0 && margin >= 0.0 && i < bits
    ensures var c := CellRect(startX, startY, seg, margin, i);
      startY - seg * (bits as real) <= c.bottom && c.top <= startY &&
      startX - seg / 2.0 <= c.left && c.right <= startX + seg / 2.0
    ensures var c := CellRect(startX, startY, seg, margin, i);
      seg >= 2.0 * margin ==>
        startY - seg * (bits as real) <= c.bottom <= c.top <= startY &&
        startX - seg / 2.0 <= c.left <= c.right <= startX + seg / 2.0
  {
    var rest := (bits - (i + 1)) as real;
    assert seg * (bits as real) == seg * ((i + 1) as real) + seg * rest;
    assert seg * rest >= 0.0;
    assert seg * (i as real) >= 0.0;
  }

  /** The slots cover the whole column: every point of the band belongs to the
      slot of some bit. */
  lemma {:induction false} SlotsCoverColumn(startX: real, startY: real, seg: real, bits: nat, y: real)
    requires seg > 0.0 && bits > 0
    requires startY - seg * (bits as real) <= y <= startY
    ensures exists i: nat :: (i < bits &&
      Slot(startX, startY, seg, i).bottom <= y <= Slot(startX, startY, seg, i).top)
  {
    var last: nat := bits - 1;
    assert seg * (bits as real) == seg * (last as real) + seg;
    if last == 0 || y < startY - seg * (last as real) {
      assert Slot(startX, startY, seg, last).bottom <= y <= Slot(startX, startY, seg, last).top;
    } else {
      SlotsCoverColumn(startX, startY, seg, last, y);
    }
  }

  /** The drawn column: one cell per bit, in slot order, filled with the "1"
      paint exactly for the set bits, so the column shows the number. */
  lemma BinaryLineShowsValue(startX: real, startY: real, num: Int32, bits: nat, seg: real)
    requires bits <= 32 && 0 <= num < Pow2(bits)
    ensures var cells := BinaryLine(startX, startY, num, bits, seg);
      |cells| == bits &&
      (forall i :: 0 <= i < bits ==>
         cells[i].rect == CellRect(startX, startY, seg, BinaryBitMargin, i) &&
         (cells[i].bit == One <==> BitSet(num, i))) &&
      ValueOf(seq(bits, i requires 0 <= i < bits => cells[i].bit)) == num
  {
    var cells := BinaryLine(startX, startY, num, bits, seg);
    assert seq(bits, i requires 0 <= i < bits => cells[i].bit) == BinaryPaint(num, bits);
    BinaryPaintShowsValue(num, bits);
  }
}

=== FILE: timer.dfy ===
/** The delay of the interactive-mode redraw tick (the handler callback's
    `INTERACTIVE_UPDATE_RATE_MS - (timeMs % INTERACTIVE_UPDATE_RATE_MS)`). */
module Timer {
  import opened Arith

  /** `INTERACTIVE_UPDATE_RATE_MS`: one second. */
  const InteractiveUpdateRateMs: int := 1000

  /** The delay before the next tick, computed from the wall clock `nowMs`:
      positive, under two seconds, and landing on a whole second. */
  function TickDelay(nowMs: int): (d: int)
    ensures 1 <= d < 2 * InteractiveUpdateRateMs
    ensures (nowMs + d) % InteractiveUpdateRateMs == 0
  {
    InteractiveUpdateRateMs - JavaRem(nowMs, InteractiveUpdateRateMs)
  }

  /** The tick always lands on a whole second, so lateness of one tick never
      accumulates into the next. For a clock at or after the epoch the wait
      is between 1 ms and one second and lands on the first whole second
      strictly after `nowMs`; before the epoch Java's signed remainder makes
      the wait between one and two seconds. */
  lemma TickDelayAligned(nowMs: int)
    ensures (nowMs + TickDelay(nowMs)) % InteractiveUpdateRateMs == 0
    ensures nowMs >= 0 ==>
      1 <= TickDelay(nowMs) <= InteractiveUpdateRateMs &&
      nowMs + TickDelay(nowMs) == (nowMs / InteractiveUpdateRateMs + 1) * InteractiveUpdateRateMs
    ensures nowMs < 0 ==> InteractiveUpdateRateMs <= TickDelay(nowMs) < 2 * InteractiveUpdateRateMs
  {
    if nowMs < 0 {
      var n := -nowMs;
      assert n == 1000 * (n / 1000) + n % 1000;
      assert nowMs + TickDelay(nowMs) == 1000 * (1 - n / 1000);
    }
  }
}

=== FILE: watchface.dfy ===
/** The watch-face engine as a state record and one transition function per
    host callback: visibility, ambient mode, interruption filter, display
    properties, surface size, the redraw-timer handler and teardown. The
    handler queue is modelled by the delays of its pending update messages,
    the system's receiver registry by a registration count, and `invalidate()`
    by a counter of redraw requests. */
module WatchFace {
  import opened Paints
  import opened BinaryBits
  import Dial
  import Timer

  /** `WatchFaceService.INTERRUPTION_FILTER_NONE` (the notification manager's
      "no interruptions" filter). */
  const InterruptionFilterNone: int := 3

  datatype Engine = Engine(
    res: Resources,
    visible: bool,             // isVisible()
    ambient: bool,             // mAmbient
    muted: bool,               // mMuteMode
    lowBitAmbient: bool,       // mLowBitAmbient
    burnInProtection: bool,    // mBurnInProtection
    receiverRegistered: bool,  // mRegisteredTimeZoneReceiver
    hostRegistrations: int,    // registrations of mTimeZoneReceiver the system holds
    pendingTicks: seq<int>,    // delays of the MSG_UPDATE_TIME messages queued on the handler
    geometry: Dial.Geometry,
    colors: LoadedColors,
    paints: WatchPaints,
    complicationText: TextColors,
    invalidations: nat)        // redraw requests issued so far

  /** The host callbacks the engine reacts to. */
  datatype Event =
    | VisibilityChanged(visible: bool, accent: Accent)  // accent: the preference read on becoming visible
    | AmbientModeChanged(inAmbientMode: bool)
    | InterruptionFilterChanged(filter: int)
    | PropertiesChanged(lowBitAmbient: bool, burnInProtection: bool)
    | SurfaceChanged(width: Int32, height: Int32)
    | UpdateTimeMessage(nowMs: int)                      // nowMs: System.currentTimeMillis() in the callback
    | TimeTick
    | ComplicationDataUpdate
    | TimeZoneChanged                                    // the ACTION_TIMEZONE_CHANGED broadcast

  /** The three states of the face's lifecycle. */
  datatype Mode = Invisible | VisibleActive | VisibleAmbient

  function ModeOf(s: Engine): Mode {
    if !s.visible then Invisible else if s.ambient then VisibleAmbient else VisibleActive
  }

  /** `shouldTimerBeRunning`: the per-second timer runs exactly in the
      visible, active mode. */
  predicate ShouldTimerBeRunning(s: Engine): (b: bool)
    ensures b <==> ModeOf(s) == VisibleActive
  {
    s.visible && !s.ambient
  }

  function Invalidate(s: Engine): Engine {
    s.(invalidations := s.invalidations + 1)
  }

  /** The colours `loadSavedPreferences` takes from the accent and the
      resources. */
  function AccentColors(res: Resources, accent: Accent): LoadedColors {
    LoadedColors(accent.shade500, accent.shade800, res.binaryBit0, res.binaryBit1, res.bitsShadow,
                 accent.shade800IsDark)
  }

  /** `loadSavedPreferences`: the accent shades, the fixed bit colours, and
      fresh background and ring paints. The ring's shadow takes the hand
      shadow colour as it was before this call assigns it, and its stroke
      width is four segments of the geometry known at this moment. */
  function LoadSavedPreferences(s: Engine, accent: Accent): (r: Engine)
    ensures r.colors == AccentColors(s.res, accent)
    ensures r.paints.background.color == r.colors.background && !r.paints.background.antiAlias
    ensures r.paints.backgroundRing.color == r.colors.backgroundRing
    ensures r.paints.backgroundRing.style == Stroke
    ensures r.paints.backgroundRing.strokeWidth == 4.0 * s.geometry.segmentSize
    ensures r.paints.backgroundRing.shadow == ShadowLayer(s.colors.handShadow)
    ensures r == s.(colors := r.colors, paints := s.paints.(background := r.paints.background,
                                                           backgroundRing := r.paints.backgroundRing))
  {
    var background := SetColor(NewPaint, accent.shade500);
    var ring := SetColor(NewPaint, accent.shade800).(shadow := ShadowLayer(s.colors.handShadow),
                                                   style := Stroke,
                                                   strokeWidth := s.geometry.segmentSize * 4.0);
    s.(colors := AccentColors(s.res, accent), paints := s.paints.(background := background, backgroundRing := ring))
  }

  /** `setComplicationsActiveAndAmbientColors`: the light text pair on a dark
      background ring, and nothing else changes. */
  function SetComplicationColors(s: Engine): (r: Engine)
    ensures r == s.(complicationText := r.complicationText)
    ensures s.colors.isBackgroundDark ==>
      r.complicationText == TextColors(s.res.complicationLightPrimary, s.res.complicationLightSecondary)
    ensures !s.colors.isBackgroundDark ==>
      r.complicationText == TextColors(s.res.complicationDarkPrimary, s.res.complicationDarkSecondary)
  {
    s.(complicationText := ComplicationTextColors(s.colors.isBackgroundDark, s.res))
  }

  /** `initializeWatchFace`: two fresh bit paints in the loaded bit colours,
      anti-aliased, filled and without shadow; nothing else changes. */
  function InitializeWatchFace(s: Engine): (r: Engine)
    ensures r.paints.binary0 == Paint(s.colors.binary0, true, NoShadow, Fill, 0.0)
    ensures r.paints.binary1 == Paint(s.colors.binary1, true, NoShadow, Fill, 0.0)
    ensures r == s.(paints := s.paints.(binary0 := r.paints.binary0, binary1 := r.paints.binary1))
  {
    s.(paints := s.paints.(binary1 := SetColor(NewPaint, s.colors.binary1).(antiAlias := true),
                           binary0 := SetColor(NewPaint, s.colors.binary0).(antiAlias := true)))
  }

  /** `updateWatchPaintStyles` as written. */
  function UpdateStylesAsWritten(s: Engine): Engine {
    s.(paints := UpdateWatchPaintStylesAsWritten(s.paints, s.ambient, s.lowBitAmbient, s.colors, s.res))
  }

  /** `updateWatchPaintStyles` keeping the mute dimming. */
  function UpdateStyles(s: Engine): Engine {
    s.(paints := UpdateWatchPaintStyles(s.paints, s.ambient, s.lowBitAmbient, s.muted, s.colors, s.res))
  }

  /** The part of the invariant the source keeps as written: the receiver is
      registered with the system exactly when the flag says so and exactly
      while visible, one update message is queued exactly in visible active
      mode, the paints carry the colours of the current mode, and the
      complication text matches the background's darkness. */
  predicate ValidCore(s: Engine) {
    s.hostRegistrations == (if s.receiverRegistered then 1 else 0) &&
    s.receiverRegistered == s.visible &&
    |s.pendingTicks| == (if ShouldTimerBeRunning(s) then 1 else 0) &&
    s.colors.binary0 == s.res.binaryBit0 && s.colors.binary1 == s.res.binaryBit1 &&
    ColorsMatchMode(s.paints, s.ambient, s.colors, s.res) &&
    s.complicationText == ComplicationTextColors(s.colors.isBackgroundDark, s.res)
  }

  /** In mute mode both bit paints are dimmed. */
  predicate MuteDimmed(s: Engine) {
    s.muted ==> AlphaOf(s.paints.binary0.color) == MutedAlpha && AlphaOf(s.paints.binary1.color) == MutedAlpha
  }

  /** The full invariant, which the engine keeps once mute dimming survives restyling. */
  predicate Valid(s: Engine) {
    ValidCore(s) && MuteDimmed(s)
  }

  /** `onCreate`: preferences, complication colours and bit paints, starting
      invisible, active, unmuted, with no receiver and no timer. */
  function Create(res: Resources, accent: Accent): (r: Engine)
    ensures Valid(r)
    ensures ModeOf(r) == Invisible && !r.muted
    ensures r.pendingTicks == [] && !r.receiverRegistered && r.hostRegistrations == 0
    ensures r.colors == AccentColors(res, accent) && ColorsMatchMode(r.paints, false, r.colors, res)
  {
    var blank := Engine(res, false, false, false, false, false, false, 0, [], Dial.Unset,
                        LoadedColors(0, 0, 0, 0, 0, false), WatchPaints(NewPaint, NewPaint, NewPaint, NewPaint),
                        TextColors(0, 0), 0);
    InitializeWatchFace(SetComplicationColors(LoadSavedPreferences(blank, accent)))
  }

  /** `updateTimer`: drop every queued update message, then queue one
      immediate message if the timer should run. */
  function UpdateTimer(s: Engine): (r: Engine)
    ensures |r.pendingTicks| == (if ShouldTimerBeRunning(s) then 1 else 0)
    ensures forall i :: 0 <= i < |r.pendingTicks| ==> r.pendingTicks[i] == 0
    ensures r == s.(pendingTicks := r.pendingTicks)
  {
    var cleared := s.(pendingTicks := []);
    if ShouldTimerBeRunning(cleared) then cleared.(pendingTicks := cleared.pendingTicks + [0]) else cleared
  }

  /** The handler callback for one delivered update message: redraw, and
      queue the next message, aligned to the next whole second, only while the
      timer should run. With nothing queued there is nothing to deliver. */
  function HandleUpdateMessage(s: Engine, nowMs: int): (r: Engine)
    ensures |s.pendingTicks| == 0 ==> r == s
    ensures |s.pendingTicks| > 0 ==>
      r.invalidations == s.invalidations + 1 &&
      |r.pendingTicks| == |s.pendingTicks| - 1 + (if ShouldTimerBeRunning(s) then 1 else 0) &&
      r.pendingTicks[..|s.pendingTicks| - 1] == s.pendingTicks[1..] &&
      (ShouldTimerBeRunning(s) ==> r.pendingTicks[|r.pendingTicks| - 1] == Timer.TickDelay(nowMs)) &&
      r == s.(pendingTicks := r.pendingTicks, invalidations := r.invalidations)
  {
    if |s.pendingTicks| == 0 then s
    else
      var delivered := Invalidate(s.(pendingTicks := s.pendingTicks[1..]));
      if ShouldTimerBeRunning(delivered) then
        delivered.(pendingTicks := delivered.pendingTicks + [Timer.TickDelay(nowMs)])
      else
        delivered
  }

  /** `registerReceiver`: registers with the system only if not yet registered. */
  function RegisterReceiver(s: Engine): (r: Engine)
    ensures r.receiverRegistered
    ensures r.hostRegistrations == s.hostRegistrations + (if s.receiverRegistered then 0 else 1)
    ensures r == s.(receiverRegistered := r.receiverRegistered, hostRegistrations := r.hostRegistrations)
  {
    if s.receiverRegistered then s
    else s.(receiverRegistered := true, hostRegistrations := s.hostRegistrations + 1)
  }

  /** `unregisterReceiver`: unregisters from the system only if registered. */
  function UnregisterReceiver(s: Engine): (r: Engine)
    ensures !r.receiverRegistered
    ensures r.hostRegistrations == s.hostRegistrations - (if s.receiverRegistered then 1 else 0)
    ensures r == s.(receiverRegistered := r.receiverRegistered, hostRegistrations := r.hostRegistrations)
  {
    if !s.receiverRegistered then s
    else s.(receiverRegistered := false, hostRegistrations := s.hostRegistrations - 1)
  }

  /** `onVisibilityChanged` as written. On becoming visible: reload the
      preferences, set the complication colours, restyle, register the
      receiver and redraw. On becoming invisible: unregister. Either way,
      restart or stop the timer. */
  function OnVisibilityChangedAsWritten(s: Engine, visible: bool, accent: Accent): (r: Engine)
    ensures r.visible == visible && r.receiverRegistered == visible
    ensures r.hostRegistrations == s.hostRegistrations +
      (if visible && !s.receiverRegistered then 1 else if !visible && s.receiverRegistered then -1 else 0)
    ensures |r.pendingTicks| == (if visible && !s.ambient then 1 else 0)
    ensures visible ==>
      r.colors == AccentColors(s.res, accent) &&
      r.complicationText == ComplicationTextColors(accent.shade800IsDark, s.res) &&
      ColorsMatchMode(r.paints, s.ambient, r.colors, s.res) &&
      r.invalidations == s.invalidations + 1 &&
      r == s.(visible := r.visible, receiverRegistered := r.receiverRegistered,
              hostRegistrations := r.hostRegistrations, pendingTicks := r.pendingTicks, colors := r.colors,
              paints := r.paints, complicationText := r.complicationText, invalidations := r.invalidations)
    ensures !visible ==>
      r == s.(visible := false, receiverRegistered := false, hostRegistrations := r.hostRegistrations,
              pendingTicks := [])
  {
    var v := s.(visible := visible);
    var t := if visible then
               Invalidate(RegisterReceiver(UpdateStylesAsWritten(SetComplicationColors(LoadSavedPreferences(v, accent)))))
             else
               UnregisterReceiver(v);
    UpdateTimer(t)
  }

  /** `onVisibilityChanged` with the restyling that keeps mute dimming: it
      differs from the callback as written only in the bit paints' alpha, and
      only when a muted face becomes visible. */
  function OnVisibilityChanged(s: Engine, visible: bool, accent: Accent): (r: Engine)
    ensures r == OnVisibilityChangedAsWritten(s, visible, accent).(paints := r.paints)
    ensures !(visible && s.muted) ==> r == OnVisibilityChangedAsWritten(s, visible, accent)
    ensures var w := OnVisibilityChangedAsWritten(s, visible, accent);
      r.paints == w.paints.(binary0 := w.paints.binary0.(color := r.paints.binary0.color),
                            binary1 := w.paints.binary1.(color := r.paints.binary1.color)) &&
      RgbOf(r.paints.binary0.color) == RgbOf(w.paints.binary0.color) &&
      RgbOf(r.paints.binary1.color) == RgbOf(w.paints.binary1.color)
    ensures visible && s.muted ==>
      AlphaOf(r.paints.binary0.color) == MutedAlpha && AlphaOf(r.paints.binary1.color) == MutedAlpha &&
      ColorsMatchMode(r.paints, s.ambient, r.colors, s.res)
  {
    var v := s.(visible := visible);
    var t := if visible then
               Invalidate(RegisterReceiver(UpdateStyles(SetComplicationColors(LoadSavedPreferences(v, accent)))))
             else
               UnregisterReceiver(v);
    UpdateTimer(t)
  }

  /** `onAmbientModeChanged` as written: record the mode, restyle, restart or
      stop the timer. The bit paints take the alpha of their new colour. */
  function OnAmbientModeChangedAsWritten(s: Engine, inAmbientMode: bool): (r: Engine)
    ensures r.ambient == inAmbientMode
    ensures ColorsMatchMode(r.paints, inAmbientMode, s.colors, s.res)
    ensures AlphaOf(r.paints.binary0.color) == AlphaOf(if inAmbientMode then s.res.binaryBit0Ambient else s.colors.binary0)
    ensures AlphaOf(r.paints.binary1.color) == AlphaOf(if inAmbientMode then s.res.binaryBit1Ambient else s.colors.binary1)
    ensures |r.pendingTicks| == (if s.visible && !inAmbientMode then 1 else 0)
    ensures r == s.(ambient := inAmbientMode, paints := r.paints, pendingTicks := r.pendingTicks)
  {
    UpdateTimer(UpdateStylesAsWritten(s.(ambient := inAmbientMode)))
  }

  /** `onAmbientModeChanged` with the restyling that keeps mute dimming: it
      differs from the callback as written only in the bit paints' alpha, and
      only while muted. */
  function OnAmbientModeChanged(s: Engine, inAmbientMode: bool): (r: Engine)
    ensures r == OnAmbientModeChangedAsWritten(s, inAmbientMode).(paints := r.paints)
    ensures !s.muted ==> r == OnAmbientModeChangedAsWritten(s, inAmbientMode)
    ensures var w := OnAmbientModeChangedAsWritten(s, inAmbientMode);
      r.paints == w.paints.(binary0 := w.paints.binary0.(color := r.paints.binary0.color),
                            binary1 := w.paints.binary1.(color := r.paints.binary1.color)) &&
      RgbOf(r.paints.binary0.color) == RgbOf(w.paints.binary0.color) &&
      RgbOf(r.paints.binary1.color) == RgbOf(w.paints.binary1.color)
    ensures s.muted ==>
      AlphaOf(r.paints.binary0.color) == MutedAlpha && AlphaOf(r.paints.binary1.color) == MutedAlpha &&
      ColorsMatchMode(r.paints, inAmbientMode, s.colors, s.res)
  {
    UpdateTimer(UpdateStyles(s.(ambient := inAmbientMode)))
  }

  /** `onInterruptionFilterChanged`: mute mode is the "no interruptions"
      filter; only a change of mute mode dims or undims the bit paints and
      redraws. */
  function OnInterruptionFilterChanged(s: Engine, filter: int): (r: Engine)
    ensures r.muted == (filter == InterruptionFilterNone)
    ensures r.invalidations == s.invalidations + (if s.muted != r.muted then 1 else 0)
    ensures s.muted != r.muted ==>
      var a := if r.muted then MutedAlpha else OpaqueAlpha;
      AlphaOf(r.paints.binary0.color) == a && AlphaOf(r.paints.binary1.color) == a &&
      RgbOf(r.paints.binary0.color) == RgbOf(s.paints.binary0.color) &&
      RgbOf(r.paints.binary1.color) == RgbOf(s.paints.binary1.color) &&
      r.paints.binary0 == s.paints.binary0.(color := r.paints.binary0.color) &&
      r.paints.binary1 == s.paints.binary1.(color := r.paints.binary1.color) &&
      r == s.(muted := r.muted, invalidations := r.invalidations,
              paints := s.paints.(binary0 := r.paints.binary0, binary1 := r.paints.binary1))
    ensures s.muted == r.muted ==> r == s
  {
    var inMuteMode := filter == InterruptionFilterNone;
    if s.muted != inMuteMode then
      var a := if inMuteMode then MutedAlpha else OpaqueAlpha;
      Invalidate(s.(muted := inMuteMode,
                    paints := s.paints.(binary1 := SetAlpha(s.paints.binary1, a),
                                        binary0 := SetAlpha(s.paints.binary0, a))))
    else
      s
  }

  /** `onPropertiesChanged`: the display's low-bit and burn-in flags. They take
      effect at the next restyle or frame; the paints keep their styles and no
      redraw is requested. */
  function OnPropertiesChanged(s: Engine, lowBitAmbient: bool, burnInProtection: bool): (r: Engine)
    ensures r.lowBitAmbient == lowBitAmbient && r.burnInProtection == burnInProtection
    ensures r.paints == s.paints && r.invalidations == s.invalidations
    ensures r == s.(lowBitAmbient := r.lowBitAmbient, burnInProtection := r.burnInProtection)
  {
    s.(lowBitAmbient := lowBitAmbient, burnInProtection := burnInProtection)
  }

  /** `onSurfaceChanged`: recompute the dial geometry, nothing else. The ring
      paint keeps the stroke width of the segment size it was loaded with. */
  function OnSurfaceChanged(s: Engine, width: Int32, height: Int32): (r: Engine)
    ensures r.geometry == Dial.SurfaceGeometry(width, height)
    ensures r.paints.backgroundRing.strokeWidth == s.paints.backgroundRing.strokeWidth
    ensures r == s.(geometry := r.geometry)
  {
    s.(geometry := Dial.SurfaceGeometry(width, height))
  }

  /** `onDestroy`: drop every queued update message. */
  function OnDestroy(s: Engine): (r: Engine)
    ensures r.pendingTicks == []
    ensures r == s.(pendingTicks := [])
  {
    s.(pendingTicks := [])
  }

  /** The time-zone receiver's `onReceive`: the system delivers the broadcast
      only while it holds a registration, and the receiver then asks for a
      redraw. The new zone reaches the model through the zone offset that
      `Frame.OnDraw` takes. */
  function OnTimeZoneChanged(s: Engine): (r: Engine)
    ensures r.invalidations == s.invalidations + (if s.hostRegistrations > 0 then 1 else 0)
    ensures r == s.(invalidations := r.invalidations)
  {
    if s.hostRegistrations > 0 then Invalidate(s) else s
  }

  /** One host callback, with the restyling that keeps mute dimming. The
      resources never change and redraw requests only accumulate. */
  function Step(s: Engine, e: Event): (r: Engine)
    ensures r.res == s.res && r.invalidations >= s.invalidations
  {
    match e
    case VisibilityChanged(visible, accent) => OnVisibilityChanged(s, visible, accent)
    case AmbientModeChanged(inAmbientMode) => OnAmbientModeChanged(s, inAmbientMode)
    case InterruptionFilterChanged(filter) => OnInterruptionFilterChanged(s, filter)
    case PropertiesChanged(lowBit, burnIn) => OnPropertiesChanged(s, lowBit, burnIn)
    case SurfaceChanged(width, height) => OnSurfaceChanged(s, width, height)
    case UpdateTimeMessage(nowMs) => HandleUpdateMessage(s, nowMs)
    case TimeTick => Invalidate(s)
    case ComplicationDataUpdate => Invalidate(s)
    case TimeZoneChanged => OnTimeZoneChanged(s)
  }

  /** One host callback as the source writes it. */
  function StepAsWritten(s: Engine, e: Event): (r: Engine)
    ensures r.res == s.res && r.invalidations >= s.invalidations
  {
    match e
    case VisibilityChanged(visible, accent) => OnVisibilityChangedAsWritten(s, visible, accent)
    case AmbientModeChanged(inAmbientMode) => OnAmbientModeChangedAsWritten(s, inAmbientMode)
    case _ => Step(s, e)
  }

  /** The engine after a sequence of callbacks, first to last. */
  function Run(s: Engine, events: seq<Event>): (r: Engine)
    ensures r.res == s.res && r.invalidations >= s.invalidations
    decreases |events|
  {
    if |events| == 0 then s else Run(Step(s, events[0]), events[1..])
  }

  /** The engine after a sequence of callbacks as the source writes them. */
  function RunAsWritten(s: Engine, events: seq<Event>): (r: Engine)
    ensures r.res == s.res && r.invalidations >= s.invalidations
    decreases |events|
  {
    if |events| == 0 then s else RunAsWritten(StepAsWritten(s, events[0]), events[1..])
  }

  /** A visibility change keeps the core invariant, as written and
      corrected; the corrected callback also keeps the mute dimming. */
  lemma VisibilityKeepsValid(s: Engine, visible: bool, accent: Accent)
    requires ValidCore(s)
    ensures ValidCore(OnVisibilityChangedAsWritten(s, visible, accent))
    ensures ValidCore(OnVisibilityChanged(s, visible, accent))
    ensures Valid(s) ==> Valid(OnVisibilityChanged(s, visible, accent))
  {
    var w := OnVisibilityChangedAsWritten(s, visible, accent);
    assert w.colors.binary0 == s.res.binaryBit0 && w.colors.binary1 == s.res.binaryBit1;
    if visible {
      assert w.complicationText == ComplicationTextColors(w.colors.isBackgroundDark, w.res);
    }
  }

  /** An ambient-mode change keeps the core invariant, as written and
      corrected; the corrected callback also keeps the mute dimming. */
  lemma AmbientKeepsValid(s: Engine, inAmbientMode: bool)
    requires ValidCore(s)
    ensures ValidCore(OnAmbientModeChangedAsWritten(s, inAmbientMode))
    ensures ValidCore(OnAmbientModeChanged(s, inAmbientMode))
    ensures Valid(s) ==> Valid(OnAmbientModeChanged(s, inAmbientMode))
  {
  }

  lemma FilterKeepsValid(s: Engine, filter: int)
    requires ValidCore(s)
    ensures ValidCore(OnInterruptionFilterChanged(s, filter))
    ensures Valid(s) ==> Valid(OnInterruptionFilterChanged(s, filter))
  {
  }

  lemma HandlerKeepsValid(s: Engine, nowMs: int)
    requires ValidCore(s)
    ensures ValidCore(HandleUpdateMessage(s, nowMs))
    ensures Valid(s) ==> Valid(HandleUpdateMessage(s, nowMs))
  {
  }

  /** Every callback keeps the core invariant, as written and corrected, and
      the corrected callbacks keep the full one. */
  lemma StepPreservesValid(s: Engine, e: Event)
    requires ValidCore(s)
    ensures ValidCore(Step(s, e)) && ValidCore(StepAsWritten(s, e))
    ensures Valid(s) ==> Valid(Step(s, e))
  {
    match e
    case VisibilityChanged(visible, accent) => VisibilityKeepsValid(s, visible, accent);
    case AmbientModeChanged(inAmbientMode) => AmbientKeepsValid(s, inAmbientMode);
    case InterruptionFilterChanged(filter) => FilterKeepsValid(s, filter);
    case UpdateTimeMessage(nowMs) => HandlerKeepsValid(s, nowMs);
    case _ =>
  }

  /** Every sequence of callbacks keeps the core invariant, as written and
      corrected, and the corrected callbacks keep the full one. */
  lemma {:induction false} RunPreservesValid(s: Engine, events: seq<Event>)
    requires ValidCore(s)
    ensures ValidCore(RunAsWritten(s, events)) && ValidCore(Run(s, events))
    ensures Valid(s) ==> Valid(Run(s, events))
    decreases |events|
  {
    if |events| > 0 {
      StepPreservesValid(s, events[0]);
      RunPreservesValid(StepAsWritten(s, events[0]), events[1..]);
      RunPreservesValid(Step(s, events[0]), events[1..]);
    }
  }

  /** Under the core invariant a time-zone change redraws exactly while the
      face is visible, in both versions of the engine, and touches nothing
      but the redraw count. */
  lemma TimeZoneRedrawsWhileVisible(s: Engine)
    requires ValidCore(s)
    ensures StepAsWritten(s, TimeZoneChanged) == Step(s, TimeZoneChanged)
    ensures Step(s, TimeZoneChanged).invalidations == s.invalidations + (if s.visible then 1 else 0)
    ensures Step(s, TimeZoneChanged) == s.(invalidations := Step(s, TimeZoneChanged).invalidations)
  {
  }

  /** The timer and receiver facts of a state: at most one update message is
      queued, and one exactly in the visible active mode; the receiver is
      registered at most once, and exactly while visible. */
  predicate TimerAndReceiverMatchMode(s: Engine) {
    |s.pendingTicks| <= 1 &&
    (|s.pendingTicks| == 1 <==> ModeOf(s) == VisibleActive) &&
    0 <= s.hostRegistrations <= 1 &&
    (s.receiverRegistered <==> s.hostRegistrations == 1) &&
    (s.receiverRegistered <==> ModeOf(s) != Invisible)
  }

  /** In every state reachable from creation, through the callbacks as the
      source writes them or corrected, the timer and receiver match the mode. */
  lemma TimerAndReceiverFollowMode(res: Resources, accent: Accent, events: seq<Event>)
    ensures TimerAndReceiverMatchMode(RunAsWritten(Create(res, accent), events))
    ensures TimerAndReceiverMatchMode(Run(Create(res, accent), events))
  {
    RunPreservesValid(Create(res, accent), events);
  }

  /** Registering and unregistering are idempotent: a second call changes nothing. */
  lemma ReceiverCallsIdempotent(s: Engine)
    ensures RegisterReceiver(RegisterReceiver(s)) == RegisterReceiver(s)
    ensures UnregisterReceiver(UnregisterReceiver(s)) == UnregisterReceiver(s)
  {
  }

  /** Becoming invisible leaves no receiver registered with the system and no
      update message queued. */
  lemma HidingReleasesEverything(s: Engine, accent: Accent)
    requires ValidCore(s)
    ensures var r := OnVisibilityChangedAsWritten(s, false, accent);
      !r.receiverRegistered && r.hostRegistrations == 0 && r.pendingTicks == []
    ensures OnVisibilityChanged(s, false, accent) == OnVisibilityChangedAsWritten(s, false, accent)
  {
  }

  /** The lifecycle walk invisible, visible active, visible ambient, visible
      active, invisible leaves no recurring redraw behind, as written and
      corrected, and tearing the engine down afterwards leaves none either. */
  lemma ModeWalkLeavesNoTimer(s: Engine, accent: Accent)
    requires ValidCore(s)
    ensures var walk := [VisibilityChanged(true, accent), AmbientModeChanged(true),
                         AmbientModeChanged(false), VisibilityChanged(false, accent)];
      var w := RunAsWritten(s, walk);
      var r := Run(s, walk);
      w.pendingTicks == [] && w.hostRegistrations == 0 && OnDestroy(w).pendingTicks == [] &&
      r.pendingTicks == [] && r.hostRegistrations == 0 && OnDestroy(r).pendingTicks == []
  {
    var walk := [VisibilityChanged(true, accent), AmbientModeChanged(true),
                 AmbientModeChanged(false), VisibilityChanged(false, accent)];
    assert walk[1..] == walk[1..4];
    assert walk[1..][1..] == walk[2..4];
    assert walk[2..4][1..] == walk[3..4];
    assert walk[3..4][1..] == [];
    var s1 := Step(s, walk[0]);
    var s2 := Step(s1, walk[1]);
    var s3 := Step(s2, walk[2]);
    var s4 := Step(s3, walk[3]);
    assert Run(s, walk) == Run(s1, walk[1..4]) == Run(s2, walk[2..4]) == Run(s3, walk[3..4]) == s4;
    var w1 := StepAsWritten(s, walk[0]);
    var w2 := StepAsWritten(w1, walk[1]);
    var w3 := StepAsWritten(w2, walk[2]);
    var w4 := StepAsWritten(w3, walk[3]);
    assert RunAsWritten(s, walk) == RunAsWritten(w1, walk[1..4]) == RunAsWritten(w2, walk[2..4])
        == RunAsWritten(w3, walk[3..4]) == w4;
    StepPreservesValid(s, walk[0]);
    StepPreservesValid(s1, walk[1]);
    StepPreservesValid(s2, walk[2]);
    StepPreservesValid(w1, walk[1]);
    StepPreservesValid(w2, walk[2]);
  }

  /** A surface change only recomputes the geometry, and repeating it with
      the same size changes nothing more. */
  lemma SurfaceChangeIdempotent(s: Engine, width: Int32, height: Int32)
    ensures var once := OnSurfaceChanged(s, width, height);
      OnSurfaceChanged(once, width, height) == once &&
      once == s.(geometry := Dial.SurfaceGeometry(width, height))
  {
  }

  /** Mute dimming survives every callback: while muted, the bit paints keep
      the muted alpha whatever mode changes happen. */
  lemma MutedBitsStayDimmed(res: Resources, accent: Accent, events: seq<Event>)
    ensures var s := Run(Create(res, accent), events);
      s.muted ==> AlphaOf(s.paints.binary0.color) == MutedAlpha && AlphaOf(s.paints.binary1.color) == MutedAlpha
  {
    RunPreservesValid(Create(res, accent), events);
  }

  /** As written, entering ambient mode while muted (after the filter change
      to "no interruptions") loses the dimming: `setColor` brings the bit paint
      back to the alpha of its ambient colour, and since the mute flag did not
      change, no later filter callback restores it. */
  lemma MuteDimmingLostAsWritten(res: Resources, accent: Accent)
    requires AlphaOf(res.binaryBit0Ambient) == OpaqueAlpha
    ensures var muted := Step(Create(res, accent), InterruptionFilterChanged(InterruptionFilterNone));
      var r := OnAmbientModeChangedAsWritten(muted, true);
      muted.muted && AlphaOf(muted.paints.binary0.color) == MutedAlpha &&
      r.muted && AlphaOf(r.paints.binary0.color) == OpaqueAlpha &&
      OnInterruptionFilterChanged(r, InterruptionFilterNone) == r
  {
  }

  /** As written, a muted face that becomes visible again loses the dimming
      too: `setColor` brings the bit paint back to the alpha of its colour. */
  lemma VisibilityLosesDimmingAsWritten(res: Resources, accent: Accent)
    requires AlphaOf(res.binaryBit0) == OpaqueAlpha
    ensures var muted := Step(Create(res, accent), InterruptionFilterChanged(InterruptionFilterNone));
      var r := OnVisibilityChangedAsWritten(muted, true, accent);
      muted.muted && AlphaOf(muted.paints.binary0.color) == MutedAlpha &&
      r.muted && AlphaOf(r.paints.binary0.color) == OpaqueAlpha &&
      OnInterruptionFilterChanged(r, InterruptionFilterNone) == r
  {
  }

  /** After becoming visible on a known surface, the background ring's stroke
      is four segments wide around the hour ring, so the ring band is exactly
      the band of the hour column: from the complication edge to the minute
      ring. */
  lemma RingBandIsHourColumn(s: Engine, accent: Accent, width: Int32, height: Int32)
    requires s.geometry == Dial.SurfaceGeometry(width, height)
    ensures var r := OnVisibilityChanged(s, true, accent);
      var ring := r.paints.backgroundRing;
      ring.style == Stroke &&
      r.geometry.hourRingRadius - ring.strokeWidth / 2.0 == r.geometry.complicationRadius &&
      r.geometry.hourRingRadius + ring.strokeWidth / 2.0 == r.geometry.minuteRingRadius
  {
  }
}
